=== FILE: README.md ===
# A verified model of a retrieval-augmented QA system

The system answers questions about a user's documents in three steps. It
loads PDF, TXT, DOCX and Markdown files and splits them into chunks. It
indexes the chunks in a persistent Chroma vector store. It then answers a
question from the chunks most similar to it and cites their sources. This
project models the system's own logic in Dafny and proves what it promises.
Every library it calls stays abstract:

- **Loaders and splitter.** The format loaders and the text splitter are
  function parameters.
- **Chroma.** Chroma is an `Engine` with three calls: build, open and search.
- **Language model.** The prompt, LLM and parser chain is a `generate`
  function from context and question to an answer or an exception.

One Dafny module corresponds to each source file:

| module | source | content |
|---|---|---|
| `Errors` | `src/exceptions.py` | the `RAGError` tree as an `ErrClass` datatype with its parent relation, `isinstance` as `IsA`, and `__str__` as `Render` |
| `Config` | `src/config.py` | the API-key validator, the numeric field bounds, and `get_settings` mapping every failure to `ConfigurationError` |
| `Logger` | `src/logger.py` | the redaction filter, which replaces a message that names a sensitive key in any letter case |
| `Models` | `src/models.py` | `SourceDocument.from_langchain_doc` (clamp, basename, defaults, preview), `format_sources` and `format_stats` |
| `VectorStore` | `src/vector_store.py` | the handle lifecycle: is there a bound handle, and is the persist directory on disk? |
| `DocumentLoader` | `src/document_loader.py` | load one file, scan a directory, and dispatch between file and directory |
| `RagSystem` | `src/rag_system.py` | indexing, querying, the prompt context and source extraction |

Three more modules are helpers:

- `Results` holds `Option` and `Result`.
- `Strings` holds the Python string operations the code uses: `in`,
  `lower`, `basename`, `splitext`, `join` and `str(int)`.
- `Dedup` holds the first-occurrence-by-key rule. `_extract_sources` and
  `format_sources` both use it.

An exception is a value `Err(cls, message, details)`. An operation returns
`Ok(value)` or `Fail(err)`. An operation that changes state returns the new
state along with that result. Exceptions from outside the system's hierarchy
have class `Foreign`, and their message is their `str()`.

## Model

| member | source | states |
|---|---|---|
| Errors.EveryCustomErrorIsRagError | src/exceptions.py:6-90 | every class of the hierarchy is a `RAGError`; a foreign exception is not |
| Errors.DocumentLoadFamily | src/exceptions.py:26-52 | an exception is a `DocumentLoadError` exactly when it is one of the three load classes, so unsupported-format and not-found errors are caught with it |
| Errors.VectorStoreFamily | src/exceptions.py:55-78 | the `VectorStoreError` family is exactly the base, not-initialised and empty errors |
| Errors.IsAPartialOrder | src/exceptions.py:20-90 | subclassing is reflexive, transitive and antisymmetric |
| Errors.Render | src/exceptions.py:14-17 | `str(e)` starts with the message; it equals the message exactly when the details are absent or empty; otherwise `": " + details` follows the message |
| Errors.Wrap | src/rag_system.py:113-117 | an exception re-raised with `details=str(cause)` has the given class and message, its details are exactly the cause's text, and so its text contains the cause's text |
| Errors.DetailsShow | src/exceptions.py:14-17 | any text embedded in the details appears in `str(e)` |
| Errors.NotFound | src/exceptions.py:44-52 | `DocumentNotFoundError(path)` is a `DocumentLoadError` whose text contains the path |
| Errors.Unsupported | src/exceptions.py:32-41 | `UnsupportedFormatError(ext)` is a `DocumentLoadError` whose text contains the extension |
| Errors.NotInitialized | src/exceptions.py:61-68 | the not-initialised error is a `VectorStoreError` with non-empty fixed details |
| Errors.EmptyStore | src/exceptions.py:71-78 | the empty-store error is a `VectorStoreError` with non-empty fixed details |
| Config.ValidateApiKey | src/config.py:68-77 | a key is accepted, and returned unchanged, exactly when it is not empty, not the placeholder `tu_api_key_aqui` and does not start with `sk-xxx`; otherwise the fixed message is raised |
| Config.Issues | src/config.py:22-77 | each field's issue is reported exactly when its bound is broken: key missing or a placeholder, temperature outside [0, 2], `chunk_size <= 0`, `chunk_overlap < 0`, `retrieval_k <= 0` |
| Config.MakeSettings | src/config.py:22-77 | construction succeeds exactly when there are no issues; the result satisfies every bound and copies every field; a failure lists the issues |
| Config.GetSettings | src/config.py:80-97 | success exactly when construction succeeds; every failure is a `ConfigurationError` "Error de configuración" carrying the validation error's text |
| Config.DefaultsAreValid | src/config.py:22-66 | the defaults with a real key are valid (chunk size 1000, k 4); an overlap larger than the chunk size is still accepted, because there is no cross-field check |
| Config.ApiKeyExamples | src/config.py:68-77 | the validator's decisions on `sk-valid-test-key`, the placeholder, `sk-xxx-invalid` and the empty key |
| Config.BoundsExamples | src/config.py:32-66 | temperatures -0.5 and 2.5, a zero chunk size and a missing key are rejected; temperature 2.0 is accepted |
| Logger.Filter | src/logger.py:23-35 | the record is always kept; name and level are untouched; a string message that names a sensitive key becomes exactly the notice; every other record is unchanged |
| Logger.SanitizeMessage | src/logger.py:33-35 | the replacement is the fixed notice whatever the message was, and the notice itself names no sensitive key |
| Logger.RedactedIsNotSensitive | src/logger.py:10-35 | the lower-cased notice contains none of the six sensitive keys |
| Logger.FilterLeavesNoSensitiveText | src/logger.py:23-35 | after filtering, no string message names a sensitive key |
| Logger.FilterIdempotent | src/logger.py:23-35 | filtering a filtered record changes nothing |
| Logger.DetectionIgnoresCase | src/logger.py:25-30 | "API_KEY=abc" is detected, and "my Password is x" is redacted |
| Dedup.Kept | src/rag_system.py:224-240 | a position survives exactly when it holds the first occurrence of its key |
| Dedup.KeptLength | src/rag_system.py:224-240 | there are no more survivors than elements |
| Dedup.KeptIncreasing | src/rag_system.py:227-238 | the survivors keep their ranked order |
| Dedup.KeptDistinctKeys | src/rag_system.py:232-235 | no two survivors share a key |
| Dedup.KeptCoversKey | src/rag_system.py:232-238 | every key of the input is the key of some survivor |
| Dedup.KeptAllSame | src/rag_system.py:224-240 | when all keys are equal, only the first element survives |
| Dedup.KeptOfDistinct | src/models.py:82-94 | with pairwise distinct keys, every element survives in place |
| Dedup.KeptIdempotent | src/models.py:82-94 | deduplicating the survivors again drops nothing |
| Models.Similarity | src/models.py:13-17 | the similarity lies in [0, 1]; it is 1 for distance at most 0, 0 for distance at least 1, and `1 - distance` in between |
| Models.SimilarityAntitone | src/models.py:44 | a smaller distance never gives a smaller similarity |
| Models.SimilarityExamples | src/models.py:44 | distance 0 gives 1, distance 0.2 gives 0.8, and distance 1.5 gives 0 |
| Models.Preview | src/models.py:51 | content of at most 150 characters is its own preview; longer content gives its first 150 characters plus "...", 153 in all |
| Models.FromDoc | src/models.py:20-52 | the file name is a '/'-free suffix of the source path, the page is the metadata page or "N/A", the content is copied, the preview is as above, and the similarity is the clamped score |
| Models.FromDocDefaults | src/models.py:40-42 | a chunk without metadata is cited as file "Unknown", page "N/A" |
| Models.SourceKeySameFile | src/models.py:84 | the `f"{file_name}_{page}"` key of `SourceKey` separates two pages of one file exactly when their printed forms differ |
| Models.SourceKeyPageTypes | src/rag_system.py:232 | because `SourceKey` is a string, page `n` and page `str(n)` of one file give the same key |
| Models.FormatSources | src/models.py:70-97 | the listing is empty exactly when there are no sources |
| Models.BlocksShape | src/models.py:83-94 | the `j`-th block is the four lines of the `j`-th kept source, labelled with that source's original position |
| Models.ReportLinesShape | src/models.py:75-97 | the listing is a four-line header, then four lines per kept source, then a closing rule |
| Models.FormatSourcesBlocks | src/models.py:82-94 | one block per distinct `file_page` key, each from the first source with that key and labelled with its original 1-based position; no key is printed twice and none is missed |
| Models.LabelsSkipDuplicates | src/models.py:82-94 | for two copies of one page followed by another page, the listing shows blocks "[1]" and "[3]" |
| Models.FormatStats | src/models.py:114-122 | the report starts with the document count; it ends in "Estado: Cargado" exactly when the index is loaded, and in "Estado: No cargado" exactly when it is not |
| Models.NumSources | src/models.py:65-68 | `num_sources` is zero exactly when there are no sources, and never smaller than the number of blocks `format_sources` prints |
| Models.StatusLineEnds | src/models.py:116-121 | the status word decides which of the two endings the report has |
| VectorStore.New | src/vector_store.py:24-49 | a fresh store is not initialised and keeps its directory |
| VectorStore.IsInitialized | src/vector_store.py:47-49 | `is_initialized` holds exactly when a Chroma handle is bound |
| VectorStore.InitializedLifecycle | src/vector_store.py:24-173 | a new or deleted store is not initialised; a successful create or load binds a handle; a failing create or load, or a load without a directory, leaves `is_initialized` as it was |
| VectorStore.Create | src/vector_store.py:51-85 | an empty list raises the empty-store error and changes nothing; success comes exactly from a successful build, which binds the new handle; a failure leaves the store unchanged and is a `VectorStoreError`; the empty error passes through and anything else is wrapped |
| VectorStore.Load | src/vector_store.py:87-118 | an absent directory returns `False` and changes nothing; `True` comes exactly from a successful open of an existing directory and binds that handle; a failed open of an existing directory raises "Error cargando vector store" wrapping the cause and changes nothing |
| VectorStore.SimilaritySearch | src/vector_store.py:120-142 | unbound: not initialised; bound: Chroma's search with the query and `k` unchanged |
| VectorStore.GetRetriever | src/vector_store.py:144-163 | a retriever exists exactly when a handle is bound, with search type "similarity" and the given `k`; otherwise the not-initialised error |
| VectorStore.Delete | src/vector_store.py:165-173 | afterwards the handle is unbound and the directory absent, whatever the prior state |
| VectorStore.OperationsKeepConsistent | src/vector_store.py:36-173 | no operation leaves a bound handle without its directory |
| VectorStore.DeleteIdempotent | src/vector_store.py:165-173 | deleting twice is deleting once |
| VectorStore.DeleteThenUse | src/vector_store.py:97-173 | after deletion, search and retriever are refused and load returns `False` |
| VectorStore.CreateThenSearch | src/vector_store.py:51-142 | after a successful create, searches go to the handle just built |
| VectorStore.LoadWithoutDirectoryKeepsHandle | src/vector_store.py:97-101 | a load that finds no directory keeps an already bound handle |
| DocumentLoader.PathJoin | src/document_loader.py:116 | an absolute entry name is returned unchanged; otherwise the joined path starts with the directory and ends with the entry name, with a '/' between them exactly when the directory is non-empty and does not already end in '/' |
| DocumentLoader.LoadDocument | src/document_loader.py:53-92 | a missing path is not found, checked before the extension; an unsupported lower-cased extension raises unsupported-format with that extension; success comes exactly from the format loader's success and returns its documents; a loader failure becomes `LoaderFailure(path, cause)`; every failure is a `DocumentLoadError` |
| DocumentLoader.LoaderFailure | src/document_loader.py:86-92 | not-found and unsupported-format errors pass through; any other loader failure becomes `DocumentLoadError` whose details start with the path and whose text contains the cause's text |
| DocumentLoader.ScanEntry | src/document_loader.py:116-131 | a non-file or unsupported entry contributes nothing; a loaded entry contributes its documents; a failing entry contributes nothing |
| DocumentLoader.LoadDirectory | src/document_loader.py:94-141 | a missing path is not found; a regular file cannot be listed; a directory is scanned over its listing |
| DocumentLoader.ScanEntryNeverFails | src/document_loader.py:126-131 | the scan swallows every error `load_document` can raise for one file |
| DocumentLoader.ScanNeverFails | src/document_loader.py:115-131 | a directory scan never fails, whatever the files contain |
| DocumentLoader.LoadDirectoryFails | src/document_loader.py:94-141 | in the modelled file system, `load_directory` fails exactly when the path is not a directory |
| DocumentLoader.ScanSound | src/document_loader.py:115-131 | every scanned document comes from an eligible file of the listing that loaded |
| DocumentLoader.ScanComplete | src/document_loader.py:115-131 | every document loaded from an eligible file is in the scan |
| DocumentLoader.ScanOfIneligible | src/document_loader.py:115-141 | a listing with no eligible file, including an empty one, yields no documents |
| DocumentLoader.ScanSnoc | src/document_loader.py:115-128 | one more listing entry appends that entry's documents, so the documents come in listing order |
| DocumentLoader.ScanLoop | src/document_loader.py:110-141 | the loop with its accumulator computes the scan |
| DocumentLoader.ProcessDocuments | src/document_loader.py:158-181 | a file is loaded and a directory scanned; any other path is not found; a file's load failure propagates; a directory's scan never fails; nothing loaded gives `[]` without the splitter, otherwise the splitter's outcome, success or failure, is returned |
| DocumentLoader.ProcessFailuresAreLoadErrors | src/document_loader.py:158-181 | with a splitter that never raises, every failure is a `DocumentLoadError` and a directory always succeeds |
| DocumentLoader.EmptyLoadSkipsSplitter | src/document_loader.py:178-179 | when nothing loads, the result is `[]` whatever the splitter does |
| DocumentLoader.ExtensionIgnoresCase | src/document_loader.py:71-74 | "report.PDF" and "notes.TXT" dispatch as ".pdf" and ".txt"; ".png" is not supported |
| RagSystem.IndexDocuments | src/rag_system.py:82-117 | no chunks gives `False` with nothing changed; `True` comes exactly from a successful build of the chunks, which binds the handle; a failure of the loader or of the build leaves the system unchanged and is the `IndexError` "Error durante la indexacion" with that failure's text as details |
| RagSystem.IndexEmptyIgnoresEngine | src/rag_system.py:100-104 | with no chunks the outcome does not depend on the vector store at all |
| RagSystem.IndexBuildsFromChunks | src/rag_system.py:106-111 | with chunks, the outcome depends only on building the store from exactly those chunks in the configured directory |
| RagSystem.IndexWrapsStoreFailure | src/rag_system.py:106-117 | a failing build surfaces as an `IndexError` containing the store's error text |
| RagSystem.IndexMissingPath | src/rag_system.py:95-117 | with the repository's own loader, a missing path gives an `IndexError` whose text names the path |
| RagSystem.LoadExistingIndex | src/rag_system.py:119-126 | no directory gives `False` with nothing changed; with the directory, a successful open gives `True` and binds the opened handle, and a failed open gives the `VectorStoreError` "Error cargando vector store" wrapping the cause, with nothing changed |
| RagSystem.DeleteIndex | src/rag_system.py:242-244 | afterwards no handle is bound and no directory exists; the settings are kept |
| RagSystem.EffectiveK | src/rag_system.py:146 | `None` and `0` fall back to `retrieval_k`; any other `k` is used as given |
| RagSystem.EffectiveKNeverZero | src/rag_system.py:146-151 | under valid settings the store is never asked for zero chunks, and a positive `k` is passed unchanged |
| RagSystem.ContextBlock | src/rag_system.py:196-205 | the block starts with "[Documento n]", contains the "Fuente: basename" and "Pagina: page" lines of the chunk's metadata, and ends with the chunk's content and a newline |
| RagSystem.ContextLabelsDistinct | src/rag_system.py:196-201 | blocks at different positions carry different "[Documento n]" labels |
| RagSystem.FormatContext | src/rag_system.py:184-207 | the context is empty exactly when there are no chunks, and otherwise starts with "[Documento 1]" |
| RagSystem.FormatContextSnoc | src/rag_system.py:194-207 | one more chunk appends a newline and its block, numbered after the others, so the blocks appear numbered 1..n in retrieval order |
| RagSystem.FormatContextContainsEach | src/rag_system.py:194-207 | every chunk's numbered block, and so its content and its source and page lines, is in the context |
| RagSystem.FormatContextSingle | src/rag_system.py:194-207 | a single chunk's context is exactly its block numbered 1 |
| RagSystem.ZipKeys | src/rag_system.py:227-232 | the walk stops at the shorter of documents and scores, as `zip` does, and keys every chunk by `basename_page` |
| RagSystem.ExtractSources | src/rag_system.py:209-240 | no more sources than zipped chunks; keys pairwise distinct; every chunk's key is cited |
| RagSystem.ExtractDistinct | src/rag_system.py:232-238 | no two cited sources share a key |
| RagSystem.ExtractCovers | src/rag_system.py:227-238 | every zipped chunk's key is the key of a cited source |
| RagSystem.ExtractSourcesOrder | src/rag_system.py:224-240 | the sources are a subsequence of the chunks in ranked order, each built from the first chunk of its key |
| RagSystem.ExtractSourcesAllSame | src/rag_system.py:224-240 | when all chunks come from one page, exactly one source is cited, the best-ranked one |
| RagSystem.QuerySourcesPrintWithoutGaps | src/models.py:82-94 | the sources of a query are already distinct, so `format_sources` prints all of them, numbered without gaps |
| RagSystem.DistinctSourcesPrintWithoutGaps | src/models.py:82-94 | sources with pairwise distinct keys are all printed by `format_sources`, numbered without gaps |
| RagSystem.ExtractSourcesLoop | src/rag_system.py:224-240 | the loop with a set of seen keys computes the same sources |
| RagSystem.ExtractStep | src/rag_system.py:227-238 | one loop iteration: a seen key adds nothing; a new key appends its source and joins the seen set |
| RagSystem.QueryFailure | src/rag_system.py:176-182 | a not-initialised error is re-raised as is; anything else becomes the `QueryError` "Error durante la consulta" with the cause's text as details |
| RagSystem.QueryRag | src/rag_system.py:128-182 | an uninitialised store is refused before any search; a failed search, or a failed generation after a successful search, fails with `QueryFailure` of that error; success comes exactly from a successful search with the effective `k` and a successful generation; the result carries the question, the generated answer and the extracted sources |
| RagSystem.QueryPassesK | src/rag_system.py:146-151 | the outcome depends only on the one search with the effective `k` |
| RagSystem.QueryAfterDelete | src/rag_system.py:143-144 | after the index is deleted, every query is refused as not initialised |
| RagSystem.QueryAfterIndex | src/rag_system.py:106-151 | after a successful indexing, the new handle is bound and a query is no longer refused up front |
| RagSystem.QueryNumSources | src/models.py:65-68 | a successful query cites no more sources than chunks were retrieved, and at least one if any chunk was |
| RagSystem.ExtractSourcesExample | tests/test_rag_system.py:354-382 | two chunks of page 1 of "/path/doc.pdf" at distances 0.2 and 0.3 give one source, "doc.pdf" with similarity 0.8 |

## Left out

- **Collaborators.** These have no properties of their own here; each is a parameter:
  - the format loaders (PyPDF, TextLoader, Docx2txt, Unstructured);
  - `RecursiveCharacterTextSplitter`;
  - Chroma's build, open and search;
  - the prompt, LLM and parser chain.

  No chunk-size or overlap guarantee, and no ordering of search results, is assumed. The splitter may fail, and its failure propagates out of `process_documents`.
- **Embeddings.** `src/embeddings.py` and the lazy `embeddings` property of the vector store are not modelled. They load a model and compute float vectors.
- **File system.** It is a map from path to file or directory entry. The persist directory's existence is a flag.
  - `shutil.rmtree` is modelled as setting that flag to false.
  - DocumentLoader.LoadDirectory: a failing `os.listdir` on an existing directory (for example a permission error) is not modelled; a directory's listing is always readable, so a scan never fails.
  - VectorStore.Delete: a failing `shutil.rmtree` (a permission error, or a regular file at the persist path) is not modelled; deletion always succeeds.
  - The listing order of `os.listdir` is the order of the entry's name list.
  - Partial writes that a failed Chroma build may leave on disk are not modelled: a failed build leaves the directory flag as it was.
- **Logging.** `setup_logger`, `get_logger`, handlers, and the log calls inside operations are not modelled. They only have side effects. Only the redaction filter is modelled.
- **Environment.** Reading the environment and `.env` files, and the `lru_cache` singleton in `get_settings`, are not modelled. The model starts from the raw field values.
- **Formatting done by libraries:**
  - pydantic's `str(ValidationError)` is a `describe` parameter of `Config.GetSettings`;
  - the `:.2%` rendering of a similarity is a `percent` parameter of `Models.FormatSources`.
- **Numbers.** Scores and temperatures are `real`, with no IEEE rounding.
- **Strings and paths.** `str.lower` is ASCII-only. `os.path.basename`, `splitext` and `join` follow POSIX rules. Path normalisation is not modelled.
- **Other source files.** `main.py` (the interactive command line), `src/interfaces.py` (protocol signatures only), `src/__init__.py` (re-exports) and `test_integration.py` are not part of this model.
- **DocumentChunk.** The `DocumentChunk` model in `src/models.py` is not modelled. No core operation uses it.
- **Constructor.** The `RAGSystem` constructor and its default collaborators are not modelled: a `Rag` value is built directly from settings and a store.
- **Weaker contracts:**
  - Models.FormatSources: its own contract states only the empty case. The block structure is stated about the listing's lines by `Models.FormatSourcesBlocks`, not about the joined string.
  - Models.NumSources: its contract bounds it by the printed blocks but does not restate `len(sources)`. `RagSystem.QueryNumSources` bounds it for query results.
- RagSystem.ExtractSources: a pydantic validation error from `SourceDocument` (which `query` would turn into a `QueryError`) is not modelled. A page is an integer or a string by construction, and the similarity is clamped to [0, 1], so the metadata types that would fail validation cannot be expressed.
- **Source key.** The key of a cited page is the string `file_name + "_" + str(page)`, as the code computes it. So page `1` and page `"1"` of the same file count as the same source, and so do a file `a_1` with page `x` and a file `a` with page `1_x`. A description of the key as a (file, page) pair is not what the code does; the model follows the code.

=== FILE: config.dfy ===
/**
  Settings validation (src/config.py).

  The settings are read from the environment by pydantic; the model starts
  from the raw field values (defaults already applied, the API key absent when
  it was not set) and states which of them the field validators accept.
 */
module Config {
  import opened Results
  import opened Errors

  /** The field values as read, before validation. */
  datatype RawSettings = RawSettings(
    openaiApiKey: Option<string>,
    llmModelName: string,
    llmTemperature: real,
    embeddingModelName: string,
    vectorstorePath: string,
    chunkSize: int,
    chunkOverlap: int,
    retrievalK: int)

  /** A validated configuration. */
  datatype Settings = Settings(
    openaiApiKey: string,
    llmModelName: string,
    llmTemperature: real,
    embeddingModelName: string,
    vectorstorePath: string,
    chunkSize: int,
    chunkOverlap: int,
    retrievalK: int)

  /** One rejected field, in the order pydantic validates the fields. */
  datatype Issue =
    | MissingApiKey
    | PlaceholderApiKey
    | TemperatureOutOfRange
    | ChunkSizeNotPositive
    | ChunkOverlapNegative
    | RetrievalKNotPositive

  const ApiKeyPlaceholder := "tu_api_key_aqui"
  const ApiKeyDummyPrefix := "sk-xxx"
  const ApiKeyMessage := "OPENAI_API_KEY no está configurada correctamente. Por favor, configura tu API key en el archivo .env"

  /** The raw settings when only the API key comes from the environment. */
  function Defaults(apiKey: Option<string>): RawSettings
  {
    RawSettings(apiKey, "gpt-3.5-turbo", 0.7, "all-MiniLM-L6-v2", "./vectorstore", 1000, 200, 4)
  }

  /** A key the validator turns away: empty, the template placeholder, or a dummy `sk-xxx...` key. */
  predicate IsPlaceholderKey(v: string)
  {
    v == "" || v == ApiKeyPlaceholder || ApiKeyDummyPrefix <= v
  }

  /** `Settings.validate_api_key`: a `ValueError` for a placeholder, the key itself otherwise. */
  function ValidateApiKey(v: string): (r: Result<string, string>)
    ensures r.Ok? <==> !IsPlaceholderKey(v)
    ensures r.Ok? ==> r.value == v
    ensures r.Fail? ==> r.error == ApiKeyMessage
  {
    if v == "" || v == ApiKeyPlaceholder || ApiKeyDummyPrefix <= v then Fail(ApiKeyMessage) else Ok(v)
  }

  function ApiKeyIssues(key: Option<string>): seq<Issue>
  {
    match key
    case None => [MissingApiKey]
    case Some(v) => if ValidateApiKey(v).Fail? then [PlaceholderApiKey] else []
  }

  function Check(ok: bool, issue: Issue): seq<Issue>
  {
    if ok then [] else [issue]
  }

  /** Every field constraint the raw values break, in field order. */
  function Issues(raw: RawSettings): (r: seq<Issue>)
    ensures MissingApiKey in r <==> raw.openaiApiKey.None?
    ensures PlaceholderApiKey in r <==> raw.openaiApiKey.Some? && IsPlaceholderKey(raw.openaiApiKey.value)
    ensures TemperatureOutOfRange in r <==> !(0.0 <= raw.llmTemperature <= 2.0)
    ensures ChunkSizeNotPositive in r <==> raw.chunkSize <= 0
    ensures ChunkOverlapNegative in r <==> raw.chunkOverlap < 0
    ensures RetrievalKNotPositive in r <==> raw.retrievalK <= 0
  {
    ApiKeyIssues(raw.openaiApiKey)
    + Check(0.0 <= raw.llmTemperature <= 2.0, TemperatureOutOfRange)
    + Check(raw.chunkSize > 0, ChunkSizeNotPositive)
    + Check(raw.chunkOverlap >= 0, ChunkOverlapNegative)
    + Check(raw.retrievalK > 0, RetrievalKNotPositive)
  }

  /** The field bounds a validated configuration satisfies. */
  predicate Valid(s: Settings)
  {
    && !IsPlaceholderKey(s.openaiApiKey)
    && 0.0 <= s.llmTemperature <= 2.0
    && s.chunkSize > 0
    && s.chunkOverlap >= 0
    && s.retrievalK > 0
  }

  /** `Settings(...)`: the validated settings, or the list of rejected fields. */
  function MakeSettings(raw: RawSettings): (r: Result<Settings, seq<Issue>>)
    ensures r.Ok? <==> Issues(raw) == []
    ensures r.Ok? ==> Valid(r.value)
    ensures r.Ok? ==> (
      && r.value.openaiApiKey == raw.openaiApiKey.value
      && r.value.llmTemperature == raw.llmTemperature
      && r.value.chunkSize == raw.chunkSize
      && r.value.chunkOverlap == raw.chunkOverlap
      && r.value.retrievalK == raw.retrievalK
      && r.value.llmModelName == raw.llmModelName
      && r.value.embeddingModelName == raw.embeddingModelName
      && r.value.vectorstorePath == raw.vectorstorePath)
    ensures r.Fail? ==> r.error == Issues(raw) && r.error != []
  {
    var issues := Issues(raw);
    if issues != [] then Fail(issues)
    else
      Ok(Settings(raw.openaiApiKey.value, raw.llmModelName, raw.llmTemperature,
                  raw.embeddingModelName, raw.vectorstorePath,
                  raw.chunkSize, raw.chunkOverlap, raw.retrievalK))
  }

  /**
    `get_settings`: any construction failure becomes a `ConfigurationError`
    whose details are the validation error's text, rendered by `describe`
    (pydantic's `str(ValidationError)`, not modelled).
   */
  function GetSettings(raw: RawSettings, describe: seq<Issue> -> string): (r: Outcome<Settings>)
    ensures r.Ok? <==> Issues(raw) == []
    ensures r.Ok? ==> MakeSettings(raw) == Ok(r.value)
    ensures r.Fail? ==> (
      && r.error.cls == Configuration
      && r.error.message == "Error de configuración"
      && r.error.details == Some(describe(Issues(raw))))
  {
    match MakeSettings(raw)
    case Ok(s) => Ok(s)
    case Fail(issues) => Fail(Err(Configuration, "Error de configuración", Some(describe(issues))))
  }

  /** The defaults pass validation with any real key; the overlap is not checked against the chunk size. */
  lemma DefaultsAreValid(key: string)
    requires !IsPlaceholderKey(key)
    ensures MakeSettings(Defaults(Some(key))).Ok?
    ensures MakeSettings(Defaults(Some(key))).value.chunkSize == 1000
    ensures MakeSettings(Defaults(Some(key))).value.retrievalK == 4
    ensures MakeSettings(Defaults(Some(key)).(chunkOverlap := 5000)).Ok?
  {
  }

  /** The validator's decisions on the keys the test-suite uses. */
  lemma ApiKeyExamples()
    ensures ValidateApiKey("sk-valid-test-key") == Ok("sk-valid-test-key")
    ensures ValidateApiKey("tu_api_key_aqui").Fail?
    ensures ValidateApiKey("sk-xxx-invalid").Fail?
    ensures ValidateApiKey("").Fail?
  {
    assert ApiKeyDummyPrefix <= "sk-xxx-invalid";
    assert !(ApiKeyDummyPrefix <= "sk-valid-test-key") by {
      assert "sk-valid-test-key"[3] != ApiKeyDummyPrefix[3];
    }
  }

  /** Temperatures outside [0, 2] and a zero chunk size are rejected. */
  lemma BoundsExamples(key: string)
    requires !IsPlaceholderKey(key)
    ensures MakeSettings(Defaults(Some(key)).(llmTemperature := -0.5)).Fail?
    ensures MakeSettings(Defaults(Some(key)).(llmTemperature := 2.5)).Fail?
    ensures MakeSettings(Defaults(Some(key)).(llmTemperature := 2.0)).Ok?
    ensures MakeSettings(Defaults(Some(key)).(chunkSize := 0)).Fail?
    ensures MakeSettings(Defaults(None)).Fail?
  {
  }
}

=== FILE: dedup.dfy ===
/**
  First-occurrence deduplication by key, the rule shared by the source
  extraction of a query (`RAGSystem._extract_sources`) and the rendering of a
  result's sources (`QueryResult.format_sources`): walk the ranked list, keep
  an element when its key has not been seen before, drop it otherwise.

  `Kept(keys)` is the list of positions that survive, in ranked order.
 */
module Dedup {

  /** Position `i` holds the first occurrence of its key. */
  predicate IsFirst<K(==)>(keys: seq<K>, i: int)
  {
    0 <= i < |keys| && keys[i] !in keys[..i]
  }

  /** The positions of the first occurrences, in increasing order. */
  function Kept<K(==)>(keys: seq<K>): (r: seq<nat>)
    ensures forall j :: 0 <= j < |r| ==> r[j] < |keys|
    ensures forall i :: i in r <==> IsFirst(keys, i)
    decreases |keys|
  {
    if |keys| == 0 then []
    else
      var n := |keys| - 1;
      assert forall i :: 0 <= i < n ==> keys[..n][..i] == keys[..i];
      Kept(keys[..n]) + (if keys[n] in keys[..n] then [] else [n])
  }

  /** Extending the list by one key keeps the survivors so far and adds the new position if its key is new. */
  lemma KeptSnoc<K>(keys: seq<K>, i: int)
    requires 0 <= i < |keys|
    ensures Kept(keys[..i + 1]) == Kept(keys[..i]) + (if keys[i] in keys[..i] then [] else [i])
  {
    var prefix := keys[..i + 1];
    assert prefix[..i] == keys[..i];
    assert prefix[i] == keys[i];
  }

  /**
    The set of keys seen before position `i`, as a loop over the list keeps
    it: the key at `i` is in it exactly when it occurs earlier.
   */
  lemma SeenStep<K>(keys: seq<K>, i: int, seen: set<K>)
    requires 0 <= i < |keys|
    requires seen == set j | 0 <= j < i :: keys[j]
    ensures keys[i] in seen <==> keys[i] in keys[..i]
    ensures (set j | 0 <= j < i + 1 :: keys[j]) == seen + {keys[i]}
  {
    if keys[i] in keys[..i] {
      var j :| 0 <= j < i && keys[..i][j] == keys[i];
      assert keys[j] == keys[i];
    }
  }

  /** No more survivors than keys. */
  lemma {:induction false} KeptLength<K>(keys: seq<K>)
    ensures |Kept(keys)| <= |keys|
    decreases |keys|
  {
    if |keys| > 0 {
      KeptLength(keys[..|keys| - 1]);
    }
  }

  /** The survivors appear in ranked order, each once. */
  lemma {:induction false} KeptIncreasing<K>(keys: seq<K>)
    ensures forall a, b :: 0 <= a < b < |Kept(keys)| ==> Kept(keys)[a] < Kept(keys)[b]
    decreases |keys|
  {
    if |keys| > 0 {
      KeptIncreasing(keys[..|keys| - 1]);
    }
  }

  /** No two survivors share a key. */
  lemma KeptDistinctKeys<K>(keys: seq<K>)
    ensures forall a, b :: 0 <= a < |Kept(keys)| && 0 <= b < |Kept(keys)| && a != b
                ==> keys[Kept(keys)[a]] != keys[Kept(keys)[b]]
  {
    var r := Kept(keys);
    KeptIncreasing(keys);
    forall a, b | 0 <= a < |r| && 0 <= b < |r| && a < b
      ensures keys[r[a]] != keys[r[b]]
    {
      assert r[b] in r;
      assert keys[r[a]] == keys[..r[b]][r[a]];
    }
  }

  /** Every key of the input is the key of some survivor. */
  lemma {:induction false} KeptCoversKey<K>(keys: seq<K>, i: int)
    requires 0 <= i < |keys|
    ensures exists j :: 0 <= j < |Kept(keys)| && keys[Kept(keys)[j]] == keys[i]
    decreases i
  {
    var r := Kept(keys);
    if keys[i] in keys[..i] {
      var p :| 0 <= p < i && keys[..i][p] == keys[i];
      KeptCoversKey(keys, p);
    } else {
      assert IsFirst(keys, i);
      var j :| 0 <= j < |r| && r[j] == i;
    }
  }

  /** Every survivor is a first occurrence, and every key has a survivor. */
  lemma KeptFirstAndCovering<K>(keys: seq<K>)
    ensures forall j :: 0 <= j < |Kept(keys)| ==> IsFirst(keys, Kept(keys)[j])
    ensures forall i :: 0 <= i < |keys| ==> exists j :: 0 <= j < |Kept(keys)| && keys[Kept(keys)[j]] == keys[i]
  {
    var r := Kept(keys);
    forall j | 0 <= j < |r|
      ensures IsFirst(keys, r[j])
    {
      assert r[j] in r;
    }
    forall i | 0 <= i < |keys|
      ensures exists j :: 0 <= j < |Kept(keys)| && keys[Kept(keys)[j]] == keys[i]
    {
      KeptCoversKey(keys, i);
    }
  }

  /** When all keys are equal, exactly the first element survives. */
  lemma KeptAllSame<K>(keys: seq<K>)
    requires |keys| > 0
    requires forall i :: 0 <= i < |keys| ==> keys[i] == keys[0]
    ensures Kept(keys) == [0]
  {
    var r := Kept(keys);
    KeptIncreasing(keys);
    assert IsFirst(keys, 0);
    assert 0 in r;
    forall j | 0 <= j < |r|
      ensures r[j] == 0
    {
      assert r[j] in r;
    }
  }

  /** A duplicate followed by a new key: the first and the third survive. */
  lemma KeptDuplicateThenNew<K>(keys: seq<K>)
    requires |keys| == 3 && keys[1] == keys[0] && keys[2] != keys[0]
    ensures Kept(keys) == [0, 2]
  {
    assert keys[..2][..1] == keys[..1];
    assert keys[..3] == keys;
    KeptAllSame(keys[..2]);
    assert keys[2] !in keys[..2];
  }

  /** Pairwise distinct keys: nothing is dropped. */
  lemma {:induction false} KeptOfDistinct<K>(keys: seq<K>)
    requires forall a, b :: 0 <= a < b < |keys| ==> keys[a] != keys[b]
    ensures |Kept(keys)| == |keys|
    ensures forall j :: 0 <= j < |keys| ==> Kept(keys)[j] == j
    decreases |keys|
  {
    if |keys| > 0 {
      var n := |keys| - 1;
      KeptOfDistinct(keys[..n]);
      assert keys[n] !in keys[..n];
    }
  }

  /** The elements at the given positions. */
  function Select<T>(xs: seq<T>, idx: seq<nat>): (r: seq<T>)
    requires forall j :: 0 <= j < |idx| ==> idx[j] < |xs|
    ensures |r| == |idx|
  {
    seq(|idx|, j requires 0 <= j < |idx| => xs[idx[j]])
  }

  /** Selecting one more position appends its element. */
  lemma SelectSnoc<T>(xs: seq<T>, idx: seq<nat>, i: nat)
    requires forall j :: 0 <= j < |idx| ==> idx[j] < |xs|
    requires i < |xs|
    ensures Select(xs, idx + [i]) == Select(xs, idx) + [xs[i]]
  {
    var longer := idx + [i];
    forall j | 0 <= j < |longer|
      ensures Select(xs, longer)[j] == (Select(xs, idx) + [xs[i]])[j]
    {
      if j < |idx| {
        assert longer[j] == idx[j];
      }
    }
  }

  /** Deduplicating an already deduplicated list changes nothing. */
  lemma KeptIdempotent<K>(keys: seq<K>)
    ensures Kept(Select(keys, Kept(keys))) == seq(|Kept(keys)|, j => j)
  {
    var survivors := Select(keys, Kept(keys));
    KeptDistinctKeys(keys);
    KeptOfDistinct(survivors);
  }
}

=== FILE: document_loader.dfy ===
/**
  Document ingestion (src/document_loader.py): loading one file by its
  extension, scanning a directory, and turning a file or directory into
  chunks.

  The file system is a map from path to entry; a path is present exactly when
  `os.path.exists` holds for it. The format loaders (PyPDF, TextLoader,
  Docx2txt, Unstructured) are the `parse` parameter, called with the
  lower-cased extension and the path; the text splitter is the `split`
  parameter.
 */
module DocumentLoader {
  import opened Results
  import opened Strings
  import opened Errors
  import opened Models

  datatype Entry = File | Dir(names: seq<string>)

  type FileSystem = map<string, Entry>

  type Parser = (string, string) -> Outcome<seq<Doc>>

  /** `RecursiveCharacterTextSplitter.split_documents`, which may raise. */
  type Splitter = seq<Doc> -> Outcome<seq<Doc>>

  const SupportedExtensions: set<string> := {".pdf", ".txt", ".docx", ".md"}

  predicate IsFile(fs: FileSystem, p: string)
  {
    p in fs && fs[p].File?
  }

  predicate IsDir(fs: FileSystem, p: string)
  {
    p in fs && fs[p].Dir?
  }

  /** The extension the loader dispatches on: `os.path.splitext(p)[1].lower()`. */
  function LoweredExtension(p: string): string
  {
    Lower(Extension(p))
  }

  /** POSIX `os.path.join(dir, name)`: an absolute name discards the directory. */
  function PathJoin(dir: string, name: string): (r: string)
    ensures |name| > 0 && name[0] == '/' ==> r == name
    ensures !(|name| > 0 && name[0] == '/') ==> dir <= r && |r| <= |dir| + 1 + |name|
    ensures !(|name| > 0 && name[0] == '/') ==> (|r| == |dir| + |name| <==> dir == "" || dir[|dir| - 1] == '/')
    ensures !(|name| > 0 && name[0] == '/') && |r| == |dir| + 1 + |name| ==> r[|dir|] == '/'
    ensures EndsWith(r, name)
  {
    if |name| > 0 && name[0] == '/' then name
    else if dir == "" || dir[|dir| - 1] == '/' then dir + name
    else dir + "/" + name
  }

  /**
    `DocumentLoader.load_document`: existence is checked before the
    extension; a loader failure becomes a `DocumentLoadError` whose details
    start with the path, except that not-found and unsupported-format errors
    pass through.
   */
  function LoadDocument(fs: FileSystem, path: string, parse: Parser): (r: Outcome<seq<Doc>>)
    ensures path !in fs ==> r == Fail(NotFound(path))
    ensures path in fs && LoweredExtension(path) !in SupportedExtensions ==>
              r == Fail(Unsupported(LoweredExtension(path)))
    ensures r.Ok? <==> path in fs && LoweredExtension(path) in SupportedExtensions
                         && parse(LoweredExtension(path), path).Ok?
    ensures r.Ok? ==> r.value == parse(LoweredExtension(path), path).value
    ensures path in fs && LoweredExtension(path) in SupportedExtensions && parse(LoweredExtension(path), path).Fail? ==>
              r == Fail(LoaderFailure(path, parse(LoweredExtension(path), path).error))
    ensures r.Fail? ==> IsA(r.error.cls, DocumentLoad)
  {
    if path !in fs then Fail(NotFound(path))
    else
      var ext := LoweredExtension(path);
      if ext !in SupportedExtensions then Fail(Unsupported(ext))
      else
        match parse(ext, path)
        case Ok(docs) => Ok(docs)
        case Fail(e) => Fail(LoaderFailure(path, e))
  }

  /** The `except` clauses around a format loader. */
  function LoaderFailure(path: string, e: Err): (r: Err)
    ensures IsA(r.cls, DocumentLoad)
    ensures e.cls in {DocumentNotFound, UnsupportedFormat} ==> r == e
    ensures e.cls !in {DocumentNotFound, UnsupportedFormat} ==>
              && r.cls == DocumentLoad && r.message == "Error cargando documento"
              && r.details == Some(path + ": " + Render(e))
              && r.details.Some? && path + ": " <= r.details.value
              && Contains(Render(r), Render(e))
  {
    if IsA(e.cls, DocumentNotFound) || IsA(e.cls, UnsupportedFormat) then e
    else
      var r := Err(DocumentLoad, "Error cargando documento", Some(path + ": " + Render(e)));
      assert path + ": " + Render(e) + "" == path + ": " + Render(e);
      DetailsShow(r, path + ": ", Render(e), "");
      r
  }

  /** A directory entry `load_directory` hands to `load_document`. */
  predicate Eligible(fs: FileSystem, dir: string, name: string)
  {
    IsFile(fs, PathJoin(dir, name)) && LoweredExtension(name) in SupportedExtensions
  }

  /** One iteration of the scan: skip, load, or swallow a `DocumentLoadError`. */
  function ScanEntry(fs: FileSystem, dir: string, name: string, parse: Parser): (r: Outcome<seq<Doc>>)
    ensures !Eligible(fs, dir, name) ==> r == Ok([])
    ensures Eligible(fs, dir, name) && LoadDocument(fs, PathJoin(dir, name), parse).Ok? ==>
              r == LoadDocument(fs, PathJoin(dir, name), parse)
    ensures Eligible(fs, dir, name) && LoadDocument(fs, PathJoin(dir, name), parse).Fail? ==> r == Ok([])
  {
    var p := PathJoin(dir, name);
    if !IsFile(fs, p) || LoweredExtension(name) !in SupportedExtensions then Ok([])
    else
      match LoadDocument(fs, p, parse)
      case Ok(docs) => Ok(docs)
      case Fail(e) => if IsA(e.cls, DocumentLoad) then Ok([]) else Fail(e)
  }

  /**
    A scan over the listing in listing order with a given step per entry: the
    entries' documents joined, or the first exception a step lets escape.
   */
  function ScanWith(step: string -> Outcome<seq<Doc>>, names: seq<string>): Outcome<seq<Doc>>
    decreases |names|
  {
    if |names| == 0 then Ok([])
    else
      match step(names[0])
      case Fail(e) => Fail(e)
      case Ok(docs) =>
        match ScanWith(step, names[1..])
        case Fail(e) => Fail(e)
        case Ok(rest) => Ok(docs + rest)
  }

  /** A step that never fails gives a scan that never fails, one more entry appending its documents. */
  lemma {:induction false} ScanWithSnoc(step: string -> Outcome<seq<Doc>>, names: seq<string>, name: string)
    requires forall n :: step(n).Ok?
    ensures ScanWith(step, names).Ok? && ScanWith(step, names + [name]).Ok?
    ensures ScanWith(step, names + [name]).value == ScanWith(step, names).value + step(name).value
    decreases |names|
  {
    var longer := names + [name];
    if |names| == 0 {
      assert longer == [name] && longer[1..] == [];
    } else {
      assert longer[0] == names[0] && longer[1..] == names[1..] + [name];
      ScanWithSnoc(step, names[1..], name);
      var head := step(names[0]).value;
      var mid := ScanWith(step, names[1..]).value;
      assert head + (mid + step(name).value) == (head + mid) + step(name).value;
    }
  }

  /** The scan `load_directory` performs over the listing of `dir`. */
  function Scan(fs: FileSystem, dir: string, names: seq<string>, parse: Parser): Outcome<seq<Doc>>
  {
    ScanWith(name => ScanEntry(fs, dir, name, parse), names)
  }

  /** A scan whose first entry and remainder both succeed joins their documents. */
  lemma ScanCons(fs: FileSystem, dir: string, names: seq<string>, parse: Parser)
    requires |names| > 0
    requires ScanEntry(fs, dir, names[0], parse).Ok? && Scan(fs, dir, names[1..], parse).Ok?
    ensures Scan(fs, dir, names, parse)
            == Ok(ScanEntry(fs, dir, names[0], parse).value + Scan(fs, dir, names[1..], parse).value)
  {
  }

  /** `os.listdir` on a regular file. */
  function NotADirectory(path: string): Err
  {
    ForeignErr("[Errno 20] Not a directory: '" + path + "'")
  }

  /** `DocumentLoader.load_directory`. */
  function LoadDirectory(fs: FileSystem, path: string, parse: Parser): (r: Outcome<seq<Doc>>)
    ensures path !in fs ==> r == Fail(NotFound(path))
    ensures IsFile(fs, path) ==> r == Fail(NotADirectory(path))
    ensures IsDir(fs, path) ==> r == Scan(fs, path, fs[path].names, parse)
  {
    if path !in fs then Fail(NotFound(path))
    else
      match fs[path]
      case File => Fail(NotADirectory(path))
      case Dir(names) => Scan(fs, path, names, parse)
  }

  /** A single entry never fails: whatever `load_document` raises is a `DocumentLoadError`. */
  lemma ScanEntryNeverFails(fs: FileSystem, dir: string, name: string, parse: Parser)
    ensures ScanEntry(fs, dir, name, parse).Ok?
  {
  }

  /**
    No file of a scan can make it fail: `load_document` raises only
    `DocumentLoadError`s, and the scan swallows those.
   */
  lemma ScanNeverFails(fs: FileSystem, dir: string, names: seq<string>, parse: Parser)
    ensures Scan(fs, dir, names, parse).Ok?
  {
    var step := name => ScanEntry(fs, dir, name, parse);
    forall n
      ensures step(n).Ok?
    {
      ScanEntryNeverFails(fs, dir, n, parse);
    }
    if |names| > 0 {
      assert names[..|names| - 1] + [names[|names| - 1]] == names;
      ScanWithSnoc(step, names[..|names| - 1], names[|names| - 1]);
    }
  }

  /** `load_directory` fails exactly when the path is missing or is not a directory. */
  lemma LoadDirectoryFails(fs: FileSystem, path: string, parse: Parser)
    ensures LoadDirectory(fs, path, parse).Ok? <==> IsDir(fs, path)
  {
    if IsDir(fs, path) {
      ScanNeverFails(fs, path, fs[path].names, parse);
    }
  }

  /** Every document of a scan was loaded from an eligible entry of the listing. */
  lemma {:induction false} ScanSound(fs: FileSystem, dir: string, names: seq<string>, parse: Parser, d: Doc)
    requires Scan(fs, dir, names, parse).Ok? && d in Scan(fs, dir, names, parse).value
    ensures exists i :: 0 <= i < |names| && Eligible(fs, dir, names[i])
              && LoadDocument(fs, PathJoin(dir, names[i]), parse).Ok?
              && d in LoadDocument(fs, PathJoin(dir, names[i]), parse).value
    decreases |names|
  {
    var first := ScanEntry(fs, dir, names[0], parse);
    var rest := Scan(fs, dir, names[1..], parse);
    if d in first.value {
      assert Eligible(fs, dir, names[0]);
      var p := PathJoin(dir, names[0]);
      assert LoadDocument(fs, p, parse).Ok?;
    } else {
      ScanSound(fs, dir, names[1..], parse, d);
      var i :| 0 <= i < |names[1..]| && Eligible(fs, dir, names[1..][i])
               && LoadDocument(fs, PathJoin(dir, names[1..][i]), parse).Ok?
               && d in LoadDocument(fs, PathJoin(dir, names[1..][i]), parse).value;
      assert names[1..][i] == names[i + 1];
    }
  }

  /** A step that never fails gives a scan that never fails. */
  lemma {:induction false} ScanWithOk(step: string -> Outcome<seq<Doc>>, names: seq<string>)
    requires forall n :: step(n).Ok?
    ensures ScanWith(step, names).Ok?
    decreases |names|
  {
    if |names| > 0 {
      ScanWithOk(step, names[1..]);
    }
  }

  /** Whatever a step yields for one entry of the listing is in the scan. */
  lemma {:induction false} ScanWithMember(step: string -> Outcome<seq<Doc>>, names: seq<string>, i: int, d: Doc)
    requires forall n :: step(n).Ok?
    requires 0 <= i < |names| && d in step(names[i]).value
    ensures ScanWith(step, names).Ok? && d in ScanWith(step, names).value
    decreases |names|
  {
    ScanWithOk(step, names[1..]);
    var first := step(names[0]).value;
    var rest := ScanWith(step, names[1..]).value;
    assert ScanWith(step, names) == Ok(first + rest);
    if i > 0 {
      assert names[1..][i - 1] == names[i];
      ScanWithMember(step, names[1..], i - 1, d);
    }
  }

  /** Every document loaded from an eligible entry ends up in the scan. */
  lemma ScanComplete(fs: FileSystem, dir: string, names: seq<string>, parse: Parser, i: int, d: Doc)
    requires 0 <= i < |names| && Eligible(fs, dir, names[i])
    requires LoadDocument(fs, PathJoin(dir, names[i]), parse).Ok?
    requires d in LoadDocument(fs, PathJoin(dir, names[i]), parse).value
    ensures Scan(fs, dir, names, parse).Ok? && d in Scan(fs, dir, names, parse).value
  {
    var step := n => ScanEntry(fs, dir, n, parse);
    forall n
      ensures step(n).Ok?
    {
      ScanEntryNeverFails(fs, dir, n, parse);
    }
    assert step(names[i]) == LoadDocument(fs, PathJoin(dir, names[i]), parse);
    ScanWithMember(step, names, i, d);
  }

  /** A listing with no eligible entry yields no documents; so does an empty directory. */
  lemma {:induction false} ScanOfIneligible(fs: FileSystem, dir: string, names: seq<string>, parse: Parser)
    requires forall i :: 0 <= i < |names| ==> !Eligible(fs, dir, names[i])
    ensures Scan(fs, dir, names, parse) == Ok([])
    decreases |names|
  {
    if |names| > 0 {
      assert !Eligible(fs, dir, names[0]);
      assert ScanEntry(fs, dir, names[0], parse) == Ok([]);
      forall i | 0 <= i < |names[1..]|
        ensures !Eligible(fs, dir, names[1..][i])
      {
        assert names[1..][i] == names[i + 1];
      }
      ScanOfIneligible(fs, dir, names[1..], parse);
      ScanCons(fs, dir, names, parse);
      assert ScanEntry(fs, dir, names[0], parse).value + Scan(fs, dir, names[1..], parse).value == [];
    }
  }

  /**
    `DocumentLoader.process_documents`: a file is loaded, a directory is
    scanned, anything else is not found; nothing loaded means no chunks, and
    the splitter is not consulted. A splitter failure propagates unchanged.
   */
  function ProcessDocuments(fs: FileSystem, path: string, parse: Parser, split: Splitter): (r: Outcome<seq<Doc>>)
    ensures path !in fs ==> r == Fail(NotFound(path))
    ensures IsFile(fs, path) && LoadDocument(fs, path, parse).Fail? ==> r == LoadDocument(fs, path, parse)
    ensures IsFile(fs, path) && LoadDocument(fs, path, parse).Ok? ==>
              var loaded := LoadDocument(fs, path, parse).value;
              r == (if loaded == [] then Ok([]) else split(loaded))
    ensures IsDir(fs, path) ==>
              LoadDirectory(fs, path, parse).Ok? &&
              var loaded := LoadDirectory(fs, path, parse).value;
              r == (if loaded == [] then Ok([]) else split(loaded))
  {
    var loaded :=
      if IsFile(fs, path) then LoadDocument(fs, path, parse)
      else if IsDir(fs, path) then LoadDirectory(fs, path, parse)
      else Fail(NotFound(path));
    LoadDirectoryFails(fs, path, parse);
    match loaded
    case Fail(e) => Fail(e)
    case Ok(docs) => if docs == [] then Ok([]) else split(docs)
  }

  /**
    Only the loaders and the splitter can make `process_documents` fail:
    with a splitter that never raises, every failure is a `DocumentLoadError`
    and a directory always gives its chunks.
   */
  lemma ProcessFailuresAreLoadErrors(fs: FileSystem, path: string, parse: Parser, split: Splitter)
    requires forall docs :: split(docs).Ok?
    ensures ProcessDocuments(fs, path, parse, split).Fail? ==> IsA(ProcessDocuments(fs, path, parse, split).error.cls, DocumentLoad)
    ensures IsDir(fs, path) ==> ProcessDocuments(fs, path, parse, split).Ok?
  {
  }

  /** When nothing loads, the result is the same whatever the splitter does. */
  lemma EmptyLoadSkipsSplitter(fs: FileSystem, path: string, parse: Parser, split1: Splitter, split2: Splitter)
    requires IsDir(fs, path) && forall i :: 0 <= i < |fs[path].names| ==> !Eligible(fs, path, fs[path].names[i])
    ensures ProcessDocuments(fs, path, parse, split1) == ProcessDocuments(fs, path, parse, split2) == Ok([])
  {
    ScanOfIneligible(fs, path, fs[path].names, parse);
  }

  /** The extension test ignores letter case: "report.PDF" goes to the PDF loader. */
  lemma ExtensionIgnoresCase()
    ensures LoweredExtension("docs/report.PDF") == ".pdf" && ".pdf" in SupportedExtensions
    ensures LoweredExtension("notes.TXT") == ".txt"
    ensures LoweredExtension("image.png") !in SupportedExtensions
  {
    ExtensionOfReport();
    ExtensionOfNotes();
    ExtensionOfImage();
  }

  lemma ExtensionOfReport()
    ensures Extension("docs/report.PDF") == ".PDF"
  {
    var p := "docs/report.PDF";
    LastIndexOfAt(p, '/', 4);
    LastIndexOfAt(p, '.', 11);
    assert p[5] != '.';
    assert p[11..] == ".PDF";
  }

  lemma ExtensionOfNotes()
    ensures Extension("notes.TXT") == ".TXT"
  {
    var q := "notes.TXT";
    LastIndexOfAbsent(q, '/');
    LastIndexOfAt(q, '.', 5);
    assert q[0] != '.';
    assert q[5..] == ".TXT";
  }

  lemma ExtensionOfImage()
    ensures Extension("image.png") == ".png"
  {
    var x := "image.png";
    LastIndexOfAbsent(x, '/');
    LastIndexOfAt(x, '.', 5);
    assert x[0] != '.';
    assert x[5..] == ".png";
  }

  /** Scanning one more entry of a directory appends that entry's documents. */
  lemma ScanSnoc(fs: FileSystem, dir: string, names: seq<string>, name: string, parse: Parser)
    ensures Scan(fs, dir, names, parse).Ok? && Scan(fs, dir, names + [name], parse).Ok?
    ensures ScanEntry(fs, dir, name, parse).Ok?
    ensures Scan(fs, dir, names + [name], parse).value
            == Scan(fs, dir, names, parse).value + ScanEntry(fs, dir, name, parse).value
  {
    var step := n => ScanEntry(fs, dir, n, parse);
    forall n
      ensures step(n).Ok?
    {
      ScanEntryNeverFails(fs, dir, n, parse);
    }
    ScanWithSnoc(step, names, name);
  }

  /** One iteration of the loop in `load_directory`. */
  lemma ScanPrefixStep(fs: FileSystem, dir: string, names: seq<string>, parse: Parser, i: int, all: seq<Doc>)
    requires 0 <= i < |names| && Scan(fs, dir, names[..i], parse) == Ok(all)
    ensures ScanEntry(fs, dir, names[i], parse).Ok?
    ensures Scan(fs, dir, names[..i + 1], parse) == Ok(all + ScanEntry(fs, dir, names[i], parse).value)
  {
    var prefix, name := names[..i], names[i];
    ScanEntryNeverFails(fs, dir, name, parse);
    assert names[..i + 1] == prefix + [name];
    ScanSnoc(fs, dir, prefix, name, parse);
  }

  /**
    The scan as the source writes it: a loop over the listing that extends
    the accumulated documents. It computes the same list as `Scan`.
   */
  method ScanLoop(fs: FileSystem, dir: string, names: seq<string>, parse: Parser) returns (all: seq<Doc>)
    ensures Scan(fs, dir, names, parse) == Ok(all)
  {
    all := [];
    var i := 0;
    while i < |names|
      invariant 0 <= i <= |names|
      invariant Scan(fs, dir, names[..i], parse) == Ok(all)
    {
      ScanPrefixStep(fs, dir, names, parse, i, all);
      all := all + ScanEntry(fs, dir, names[i], parse).value;
      i := i + 1;
    }
    assert names[..i] == names;
  }
}

=== FILE: errors.dfy ===
/**
  The exception hierarchy of the RAG system (src/exceptions.py).

  Every custom exception carries a human-readable `message` and an optional
  `details` string; `str(e)` joins them with ": " when the details are
  non-empty. The classes form a tree rooted at `RAGError`; the model keeps the
  tree as a parent function and the `isinstance` test as `IsA`. Exceptions that
  come from outside the hierarchy (a library's `ValueError`, an `OSError`, ...)
  are the class `Foreign`, whose `message` is their `str()`.
 */
module Errors {
  import opened Results
  import opened Strings

  datatype ErrClass =
    | RagBase                    // RAGError
    | Configuration              // ConfigurationError
    | DocumentLoad               // DocumentLoadError
    | UnsupportedFormat          // UnsupportedFormatError
    | DocumentNotFound           // DocumentNotFoundError
    | VectorStore                // VectorStoreError
    | VectorStoreNotInitialized  // VectorStoreNotInitializedError
    | VectorStoreEmpty           // VectorStoreEmptyError
    | Query                      // QueryError
    | Indexing                   // IndexError (the system's own, not the builtin)
    | Foreign                    // any exception outside the hierarchy

  datatype Err = Err(cls: ErrClass, message: string, details: Option<string>)

  /** The operations' outcome: a value or the exception raised. */
  type Outcome<T> = Result<T, Err>

  /** The direct base class, when it is part of the hierarchy. */
  function Parent(c: ErrClass): Option<ErrClass>
  {
    match c
    case RagBase => None
    case Foreign => None
    case UnsupportedFormat => Some(DocumentLoad)
    case DocumentNotFound => Some(DocumentLoad)
    case VectorStoreNotInitialized => Some(VectorStore)
    case VectorStoreEmpty => Some(VectorStore)
    case _ => Some(RagBase)
  }

  /** Distance from the root of the class's tree. */
  function Depth(c: ErrClass): nat
  {
    match c
    case RagBase => 0
    case Foreign => 0
    case UnsupportedFormat => 2
    case DocumentNotFound => 2
    case VectorStoreNotInitialized => 2
    case VectorStoreEmpty => 2
    case _ => 1
  }

  /** `isinstance(e, base)` for an exception of class `c`: `c` is `base` or a subclass of it. */
  predicate IsA(c: ErrClass, base: ErrClass)
    decreases Depth(c)
  {
    c == base || (Parent(c).Some? && IsA(Parent(c).value, base))
  }

  /** Every custom exception is a `RAGError`; a foreign one is not. */
  lemma EveryCustomErrorIsRagError(c: ErrClass)
    ensures IsA(c, RagBase) <==> c != Foreign
  {
  }

  /**
    The `DocumentLoadError` family is exactly the three load classes, which is
    why a directory scan that catches `DocumentLoadError` also absorbs
    not-found and unsupported-format failures.
   */
  lemma DocumentLoadFamily(c: ErrClass)
    ensures IsA(c, DocumentLoad) <==> c in {DocumentLoad, UnsupportedFormat, DocumentNotFound}
  {
  }

  /** The `VectorStoreError` family. */
  lemma VectorStoreFamily(c: ErrClass)
    ensures IsA(c, VectorStore) <==> c in {VectorStore, VectorStoreNotInitialized, VectorStoreEmpty}
  {
  }

  /** Subclassing is a partial order: reflexive, transitive and antisymmetric. */
  lemma {:induction false} IsAPartialOrder(a: ErrClass, b: ErrClass, c: ErrClass)
    ensures IsA(a, a)
    ensures IsA(a, b) && IsA(b, c) ==> IsA(a, c)
    ensures IsA(a, b) && IsA(b, a) ==> a == b
    decreases Depth(a)
  {
    if Parent(a).Some? {
      IsAPartialOrder(Parent(a).value, b, c);
    }
  }

  /** Whether the exception has details that `str()` shows (Python's truthiness of `details`). */
  predicate HasDetails(e: Err)
  {
    e.details.Some? && e.details.value != ""
  }

  /** `RAGError.__str__`. */
  function Render(e: Err): (r: string)
    ensures e.message <= r
    ensures r == e.message <==> !HasDetails(e)
    ensures HasDetails(e) ==> r[|e.message|..] == ": " + e.details.value
  {
    if HasDetails(e) then e.message + ": " + e.details.value else e.message
  }

  /** An exception raised from outside the hierarchy, with its `str()`. */
  function ForeignErr(text: string): (e: Err)
    ensures !IsA(e.cls, RagBase) && Render(e) == text
  {
    Err(Foreign, text, None)
  }

  /** `raise Cls(message=..., details=str(cause)) from cause`. */
  function Wrap(cls: ErrClass, message: string, cause: Err): (e: Err)
    ensures e.cls == cls && e.message == message
    ensures e.details == Some(Render(cause))
    ensures Contains(Render(e), Render(cause))
  {
    var e := Err(cls, message, Some(Render(cause)));
    if Render(cause) == "" then
      assert MatchAt(Render(e), "", 0);
      e
    else
      ContainsInfix(message + ": ", Render(cause), "");
      assert message + ": " + Render(cause) + "" == Render(e);
      e
  }

  /** Whatever an exception's details embed shows up in its `str()`. */
  lemma DetailsShow(e: Err, head: string, x: string, tail: string)
    requires e.details == Some(head + x + tail)
    ensures Contains(Render(e), x)
  {
    if x == "" {
      assert MatchAt(Render(e), x, 0);
    } else {
      ContainsInfix(e.message + ": " + head, x, tail);
      assert e.message + ": " + head + x + tail == Render(e);
    }
  }

  /** `DocumentNotFoundError(path)`. */
  function NotFound(path: string): (e: Err)
    ensures e.cls == DocumentNotFound && IsA(e.cls, DocumentLoad)
    ensures Contains(Render(e), path)
  {
    var e := Err(DocumentNotFound, "Archivo o directorio no encontrado",
                 Some("La ruta '" + path + "' no existe"));
    DetailsShow(e, "La ruta '", path, "' no existe");
    e
  }

  /** `UnsupportedFormatError(ext)`. */
  function Unsupported(ext: string): (e: Err)
    ensures e.cls == UnsupportedFormat && IsA(e.cls, DocumentLoad)
    ensures Contains(Render(e), ext)
  {
    var tail := "' no está soportada. Formatos válidos: .pdf, .txt, .docx, .md";
    var e := Err(UnsupportedFormat, "Formato de documento no soportado",
                 Some("Extensión '" + ext + tail));
    DetailsShow(e, "Extensión '", ext, tail);
    e
  }

  /** `VectorStoreNotInitializedError()`: fixed message and details. */
  function NotInitialized(): (e: Err)
    ensures e.cls == VectorStoreNotInitialized && IsA(e.cls, VectorStore) && HasDetails(e)
  {
    Err(VectorStoreNotInitialized, "Vector store no inicializado",
        Some("Debes indexar documentos o cargar un índice existente primero"))
  }

  /** `VectorStoreEmptyError()`: fixed message and details. */
  function EmptyStore(): (e: Err)
    ensures e.cls == VectorStoreEmpty && IsA(e.cls, VectorStore) && HasDetails(e)
  {
    Err(VectorStoreEmpty, "No hay documentos para indexar",
        Some("Proporciona al menos un documento válido"))
  }
}

=== FILE: logger.dfy ===
/**
  The log-redaction filter (src/logger.py): a record whose text mentions a
  sensitive key, in any letter case, has its whole message replaced by a
  fixed notice. Records are never dropped.
 */
module Logger {
  import opened Strings

  const SensitiveKeys: set<string> :=
    {"api_key", "openai_api_key", "password", "secret", "token", "authorization"}

  const RedactedMessage := "[CONTENIDO SENSIBLE REDACTADO]"

  /** A record's `msg`: a string, or any other object (an exception, a dict, a number, ...). */
  datatype LogMessage = Text(text: string) | NonText(id: nat)

  /** The parts of a `logging.LogRecord` the filter looks at or must leave alone. */
  datatype LogRecord = LogRecord(name: string, level: string, msg: LogMessage)

  /** What `filter` returns (whether to keep the record) and the record after it ran. */
  datatype FilterResult = FilterResult(keep: bool, record: LogRecord)

  /** The lower-cased text contains one of the sensitive keys. */
  predicate IsSensitive(s: string)
  {
    exists k :: k in SensitiveKeys && Contains(Lower(s), k)
  }

  /**
    `SensitiveDataFilter._sanitize_message`: the replacement ignores the
    message, and is itself not sensitive, so a redacted record stays clean.
   */
  function SanitizeMessage(message: string): (r: string)
    ensures r == RedactedMessage
    ensures !IsSensitive(r)
  {
    RedactedIsNotSensitive();
    RedactedMessage
  }

  /** `SensitiveDataFilter.filter`. */
  function Filter(rec: LogRecord): (r: FilterResult)
    ensures r.keep
    ensures r.record.name == rec.name && r.record.level == rec.level
    ensures rec.msg.Text? && IsSensitive(rec.msg.text) ==> r.record.msg == Text(RedactedMessage)
    ensures !(rec.msg.Text? && IsSensitive(rec.msg.text)) ==> r.record == rec
  {
    match rec.msg
    case Text(s) =>
      if IsSensitive(s) then FilterResult(true, rec.(msg := Text(SanitizeMessage(s))))
      else FilterResult(true, rec)
    case NonText(_) => FilterResult(true, rec)
  }

  /** The only characters `str.lower` sends to `c`. */
  lemma LowerCharInverse(x: char, c: char)
    requires LowerChar(x) == c && !('A' <= c <= 'Z')
    ensures x == c || ('a' <= c <= 'z' && x as int == c as int - 32)
  {
  }

  /** A key with a letter that a text lacks in either case does not occur in the lower-cased text. */
  lemma AbsentByCharacter(s: string, k: string, d: int, lower: char, upper: char)
    requires 0 <= d < |k| && k[d] == lower && 'a' <= lower <= 'z' && upper as int == lower as int - 32
    requires lower !in s && upper !in s
    ensures !Contains(Lower(s), k)
  {
    var l := Lower(s);
    if i :| 0 <= i <= |l| - |k| && MatchAt(l, k, i) {
      assert l[i..i + |k|][d] == k[d];
      LowerCharInverse(s[i + d], k[d]);
    }
  }

  /** "secret": the notice's only 's' characters are not followed by "ec". */
  lemma SecretAbsent()
    ensures !Contains(Lower(RedactedMessage), "secret")
  {
    var l := Lower(RedactedMessage);
    var k := "secret";
    if i :| 0 <= i <= |l| - |k| && MatchAt(l, k, i) {
      assert l[i..i + |k|][0] == 's' && l[i..i + |k|][2] == 'c';
      LowerCharInverse(RedactedMessage[i], 's');
      LowerCharInverse(RedactedMessage[i + 2], 'c');
    }
  }

  /** The three keys with a 'k', a letter the notice lacks in either case. */
  lemma KeysWithKAbsent()
    ensures !Contains(Lower(RedactedMessage), "api_key")
    ensures !Contains(Lower(RedactedMessage), "openai_api_key")
    ensures !Contains(Lower(RedactedMessage), "token")
  {
    assert 'k' !in RedactedMessage && 'K' !in RedactedMessage;
    AbsentByCharacter(RedactedMessage, "api_key", 4, 'k', 'K');
    AbsentByCharacter(RedactedMessage, "openai_api_key", 11, 'k', 'K');
    AbsentByCharacter(RedactedMessage, "token", 2, 'k', 'K');
  }

  /** "password" has a 'w', a letter the notice lacks in either case. */
  lemma PasswordAbsent()
    ensures !Contains(Lower(RedactedMessage), "password")
  {
    assert 'w' !in RedactedMessage && 'W' !in RedactedMessage;
    AbsentByCharacter(RedactedMessage, "password", 4, 'w', 'W');
  }

  /** "authorization" has a 'z', a letter the notice lacks in either case. */
  lemma AuthorizationAbsent()
    ensures !Contains(Lower(RedactedMessage), "authorization")
  {
    assert 'z' !in RedactedMessage && 'Z' !in RedactedMessage;
    AbsentByCharacter(RedactedMessage, "authorization", 7, 'z', 'Z');
  }

  /** None of the sensitive keys occurs in the lower-cased notice. */
  lemma RedactedIsNotSensitive()
    ensures !IsSensitive(RedactedMessage)
  {
    KeysWithKAbsent();
    PasswordAbsent();
    AuthorizationAbsent();
    SecretAbsent();
  }

  /**
    After filtering, a string message never mentions a sensitive key: it was
    clean, or it is now the notice, which is clean.
   */
  lemma FilterLeavesNoSensitiveText(rec: LogRecord)
    ensures Filter(rec).record.msg.Text? ==> !IsSensitive(Filter(rec).record.msg.text)
  {
    RedactedIsNotSensitive();
  }

  /** Filtering an already filtered record changes nothing. */
  lemma FilterIdempotent(rec: LogRecord)
    ensures Filter(Filter(rec).record) == Filter(rec)
  {
    RedactedIsNotSensitive();
  }

  /** Detection ignores letter case: "API_KEY=..." is caught like "api_key=...". */
  lemma DetectionIgnoresCase()
    ensures IsSensitive("API_KEY=abc")
    ensures Filter(LogRecord("rag", "INFO", Text("my Password is x"))).record.msg == Text(RedactedMessage)
  {
    var s := "API_KEY=abc";
    assert Lower(s)[0..7] == "api_key";
    assert MatchAt(Lower(s), "api_key", 0);
    var t := "my Password is x";
    assert Lower(t)[3..11] == "password";
    assert MatchAt(Lower(t), "password", 3);
  }
}

=== FILE: models.dfy ===
/**
  The data transfer objects of the RAG system (src/models.py): a retrieved
  chunk turned into a cited source, the result of a query and its rendering
  for the user, and the index statistics.

  A LangChain `Document` is `Doc`: its text and the two metadata entries the
  system reads, `source` (a file path) and `page` (a number or a label), each
  possibly absent.
 */
module Models {
  import opened Results
  import opened Strings
  import Dedup

  datatype Page = PageNum(n: int) | PageLabel(name: string)

  datatype Doc = Doc(content: string, source: Option<string>, page: Option<Page>)

  /** `metadata.get("source", "Unknown")`. */
  function SourcePath(d: Doc): string
  {
    d.source.GetOr("Unknown")
  }

  /** `metadata.get("page", "N/A")`. */
  function PageOf(d: Doc): Page
  {
    d.page.GetOr(PageLabel("N/A"))
  }

  /** `f"{page}"`. */
  function PageText(p: Page): string
  {
    match p
    case PageNum(n) => IntToString(n)
    case PageLabel(l) => l
  }

  /**
    The identity of a cited page, `f"{file_name}_{page}"`. It is a string, so
    page 1 and page "1" of the same file are the same source.
   */
  function SourceKey(fileName: string, page: Page): string
  {
    fileName + "_" + PageText(page)
  }

  /** Within one file, two keys agree exactly when the pages print alike. */
  lemma SourceKeySameFile(fileName: string, p: Page, q: Page)
    ensures SourceKey(fileName, p) == SourceKey(fileName, q) <==> PageText(p) == PageText(q)
  {
    var kp, kq := SourceKey(fileName, p), SourceKey(fileName, q);
    if kp == kq {
      assert kp[|fileName| + 1..] == PageText(p) && kq[|fileName| + 1..] == PageText(q);
    }
  }

  /** Page `n` and page `str(n)` of one file are the same source. */
  lemma SourceKeyPageTypes(fileName: string, n: int)
    ensures SourceKey(fileName, PageNum(n)) == SourceKey(fileName, PageLabel(IntToString(n)))
  {
  }

  /** The identity of the page a retrieved chunk comes from. */
  function DocKey(d: Doc): string
  {
    SourceKey(Basename(SourcePath(d)), PageOf(d))
  }

  /** `SourceDocument`. */
  datatype Source = Source(fileName: string, page: Page, content: string, similarity: real, preview: string)

  function KeyOf(s: Source): string
  {
    SourceKey(s.fileName, s.page)
  }

  const PreviewLength: nat := 150

  /**
    `max(0, min(1, 1 - distance))`: a distance (lower is closer) mapped into
    [0, 1], exact for distances in [0, 1] and flattened outside it.
   */
  function Similarity(distance: real): (s: real)
    ensures 0.0 <= s <= 1.0
    ensures distance <= 0.0 ==> s == 1.0
    ensures distance >= 1.0 ==> s == 0.0
    ensures 0.0 <= distance <= 1.0 ==> s == 1.0 - distance
  {
    var m := if 1.0 < 1.0 - distance then 1.0 else 1.0 - distance;
    if 0.0 < m then m else 0.0
  }

  /** A closer chunk never gets a lower similarity: the ranking survives the clamp. */
  lemma SimilarityAntitone(d1: real, d2: real)
    requires d1 <= d2
    ensures Similarity(d1) >= Similarity(d2)
  {
  }

  lemma SimilarityExamples()
    ensures Similarity(0.0) == 1.0
    ensures Similarity(0.2) == 0.8
    ensures Similarity(1.5) == 0.0
  {
  }

  /** The first 150 characters of the content, with "..." when it was cut. */
  function Preview(content: string): (p: string)
    ensures |content| <= PreviewLength ==> p == content
    ensures |content| > PreviewLength ==> |p| == PreviewLength + 3
    ensures |content| > PreviewLength ==> p[..PreviewLength] == content[..PreviewLength] && p[PreviewLength..] == "..."
  {
    if |content| > PreviewLength then content[..PreviewLength] + "..." else content
  }

  /** `SourceDocument.from_langchain_doc(doc, score)`. */
  function FromDoc(d: Doc, distance: real): (s: Source)
    ensures '/' !in s.fileName && EndsWith(SourcePath(d), s.fileName)
    ensures s.page == PageOf(d) && KeyOf(s) == DocKey(d)
    ensures s.content == d.content && s.preview == Preview(d.content)
    ensures 0.0 <= s.similarity <= 1.0 && s.similarity == Similarity(distance)
  {
    Source(Basename(SourcePath(d)), PageOf(d), d.content, Similarity(distance), Preview(d.content))
  }

  /** The file name and page defaults for a chunk without metadata. */
  lemma FromDocDefaults(content: string, distance: real)
    ensures FromDoc(Doc(content, None, None), distance).fileName == "Unknown"
    ensures FromDoc(Doc(content, None, None), distance).page == PageLabel("N/A")
  {
    assert LastIndexOf("Unknown", '/') == -1;
  }

  datatype QueryResult = QueryResult(answer: string, sources: seq<Source>, query: string)

  /**
    `QueryResult.num_sources`: zero exactly when there is nothing to cite,
    and never fewer than the blocks `format_sources` prints.
   */
  function NumSources(qr: QueryResult): (n: nat)
    ensures n == 0 <==> qr.sources == []
    ensures |Dedup.Kept(SourceKeys(qr.sources))| <= n
  {
    Dedup.KeptLength(SourceKeys(qr.sources));
    |qr.sources|
  }

  const Rule := Repeat('=', 60)

  /** The four lines `format_sources` prints for the source at 1-based position `position`. */
  function SourceLines(position: nat, s: Source, percent: real -> string): seq<string>
  {
    [ "\n[" + NatToString(position) + "] Archivo: " + s.fileName,
      "    Pagina: " + PageText(s.page),
      "    Similitud: " + percent(s.similarity),
      "    Vista previa: " + s.preview ]
  }

  /** The key of each source, in order. */
  function SourceKeys(sources: seq<Source>): (keys: seq<string>)
    ensures |keys| == |sources|
  {
    seq(|sources|, i requires 0 <= i < |sources| => KeyOf(sources[i]))
  }

  /** The groups of lines, one after another: Python's repeated `list.extend`. */
  function Concat<T>(groups: seq<seq<T>>): seq<T>
    decreases |groups|
  {
    if |groups| == 0 then [] else groups[0] + Concat(groups[1..])
  }

  /** Concatenated groups of four lines: group `j` occupies lines `4j` to `4j + 3`. */
  lemma {:induction false} ConcatOfFours<T>(groups: seq<seq<T>>)
    requires forall j :: 0 <= j < |groups| ==> |groups[j]| == 4
    ensures |Concat(groups)| == 4 * |groups|
    ensures forall j :: 0 <= j < |groups| ==> Concat(groups)[4 * j..4 * j + 4] == groups[j]
    decreases |groups|
  {
    if |groups| > 0 {
      var tail := groups[1..];
      ConcatOfFours(tail);
      forall j | 0 <= j < |groups|
        ensures Concat(groups)[4 * j..4 * j + 4] == groups[j]
      {
        if j > 0 {
          assert Concat(groups)[4 * j..4 * j + 4] == Concat(tail)[4 * (j - 1)..4 * (j - 1) + 4];
          assert tail[j - 1] == groups[j];
        }
      }
    }
  }

  /** The blocks for the sources at the given positions, labelled with their original 1-based position. */
  function Blocks(sources: seq<Source>, kept: seq<nat>, percent: real -> string): seq<string>
    requires forall j :: 0 <= j < |kept| ==> kept[j] < |sources|
  {
    Concat(BlockGroups(sources, kept, percent))
  }

  function BlockGroups(sources: seq<Source>, kept: seq<nat>, percent: real -> string): (groups: seq<seq<string>>)
    requires forall j :: 0 <= j < |kept| ==> kept[j] < |sources|
    ensures |groups| == |kept|
  {
    seq(|kept|, j requires 0 <= j < |kept| => SourceLines(kept[j] + 1, sources[kept[j]], percent))
  }

  /** The lines of `format_sources` for a non-empty source list. */
  function SourceReportLines(sources: seq<Source>, percent: real -> string): seq<string>
  {
    ["", Rule, "FUENTES DE INFORMACION", Rule]
    + Blocks(sources, Dedup.Kept(SourceKeys(sources)), percent)
    + ["\n" + Rule]
  }

  /**
    `QueryResult.format_sources`; `percent` renders a similarity the way
    `f"{x:.2%}"` does.
   */
  function FormatSources(qr: QueryResult, percent: real -> string): (r: string)
    ensures r == "" <==> qr.sources == []
  {
    if qr.sources == [] then ""
    else
      var lines := SourceReportLines(qr.sources, percent);
      JoinNonEmpty("\n", lines);
      Join("\n", lines)
  }

  /** Block `j` of the listing is the source at position `kept[j]`, labelled `kept[j] + 1`. */
  lemma BlocksShape(sources: seq<Source>, kept: seq<nat>, percent: real -> string)
    requires forall j :: 0 <= j < |kept| ==> kept[j] < |sources|
    ensures |Blocks(sources, kept, percent)| == 4 * |kept|
    ensures forall j :: 0 <= j < |kept| ==>
              Blocks(sources, kept, percent)[4 * j..4 * j + 4] == SourceLines(kept[j] + 1, sources[kept[j]], percent)
  {
    var groups := BlockGroups(sources, kept, percent);
    ConcatOfFours(groups);
    assert Blocks(sources, kept, percent) == Concat(groups);
    forall j | 0 <= j < |kept|
      ensures Blocks(sources, kept, percent)[4 * j..4 * j + 4] == SourceLines(kept[j] + 1, sources[kept[j]], percent)
    {
      assert groups[j] == SourceLines(kept[j] + 1, sources[kept[j]], percent);
    }
  }

  /** The report is a four-line header, four lines per kept source and a closing rule. */
  lemma ReportLinesShape(sources: seq<Source>, percent: real -> string)
    ensures var kept := Dedup.Kept(SourceKeys(sources));
            var lines := SourceReportLines(sources, percent);
            && |lines| == 4 * |kept| + 5
            && (forall j :: 0 <= j < |kept| ==>
                  lines[4 + 4 * j..8 + 4 * j] == SourceLines(kept[j] + 1, sources[kept[j]], percent))
  {
    var kept := Dedup.Kept(SourceKeys(sources));
    var header: seq<string> := ["", Rule, "FUENTES DE INFORMACION", Rule];
    var blocks := Blocks(sources, kept, percent);
    var lines := SourceReportLines(sources, percent);
    assert lines == header + blocks + ["\n" + Rule];
    BlocksShape(sources, kept, percent);
    forall j | 0 <= j < |kept|
      ensures lines[4 + 4 * j..8 + 4 * j] == SourceLines(kept[j] + 1, sources[kept[j]], percent)
    {
      assert lines[4 + 4 * j..8 + 4 * j] == blocks[4 * j..4 * j + 4];
    }
  }

  /**
    `format_sources` prints one block per distinct source key: block `j`
    belongs to the first source with its key, carries that source's original
    1-based position as label (so labels skip the dropped duplicates), and no
    two blocks belong to the same key.
   */
  lemma FormatSourcesBlocks(sources: seq<Source>, percent: real -> string)
    ensures var kept := Dedup.Kept(SourceKeys(sources));
            var lines := SourceReportLines(sources, percent);
            && |lines| == 4 * |kept| + 5
            && (forall j :: 0 <= j < |kept| ==>
                  && Dedup.IsFirst(SourceKeys(sources), kept[j])
                  && lines[4 + 4 * j..8 + 4 * j] == SourceLines(kept[j] + 1, sources[kept[j]], percent))
            && (forall a, b :: 0 <= a < |kept| && 0 <= b < |kept| && a != b ==>
                  SourceKeys(sources)[kept[a]] != SourceKeys(sources)[kept[b]])
            && (forall i :: 0 <= i < |sources| ==>
                  exists j :: 0 <= j < |kept| && SourceKeys(sources)[kept[j]] == SourceKeys(sources)[i])
  {
    var keys := SourceKeys(sources);
    ReportLinesShape(sources, percent);
    Dedup.KeptDistinctKeys(keys);
    Dedup.KeptFirstAndCovering(keys);
  }

  /** Two copies of one page followed by another page: blocks "[1]" and "[3]". */
  lemma LabelsSkipDuplicates(a: Source, b: Source, c: Source, percent: real -> string)
    requires KeyOf(a) == KeyOf(b) != KeyOf(c)
    ensures var lines := SourceReportLines([a, b, c], percent);
            |lines| == 13 && lines[4] == "\n[1] Archivo: " + a.fileName && lines[8] == "\n[3] Archivo: " + c.fileName
  {
    var keys := SourceKeys([a, b, c]);
    assert keys[0] == KeyOf(a) && keys[1] == KeyOf(b) && keys[2] == KeyOf(c);
    Dedup.KeptDuplicateThenNew(keys);
    ReportLinesShape([a, b, c], percent);
    var lines := SourceReportLines([a, b, c], percent);
    assert lines[4..8] == SourceLines(1, a, percent);
    var kept := Dedup.Kept(keys);
    assert kept[1] + 1 == 3 && [a, b, c][kept[1]] == c;
    assert lines[8..12] == SourceLines(3, c, percent);
    assert NatToString(1) == "1" && NatToString(3) == "3";
  }

  /** `IndexStats`; the counts are non-negative by validation. */
  datatype IndexStats = IndexStats(totalDocuments: nat, totalChunks: nat, vectorstorePath: string, isLoaded: bool)

  /** `IndexStats.format_stats`. */
  function FormatStats(st: IndexStats): (r: string)
    ensures "Documentos: " + NatToString(st.totalDocuments) + "\n" <= r
    ensures st.isLoaded <==> EndsWith(r, "Estado: Cargado")
    ensures !st.isLoaded <==> EndsWith(r, "Estado: No cargado")
  {
    var first := "Documentos: " + NatToString(st.totalDocuments) + "\n";
    var middle := "Chunks: " + NatToString(st.totalChunks) + "\n" + "Ruta: " + st.vectorstorePath + "\n";
    var status := if st.isLoaded then "Estado: Cargado" else "Estado: No cargado";
    StatusLineEnds(first + middle, st.isLoaded);
    assert first + middle + status == first + (middle + status);
    first + (middle + status)
  }

  /** The status line decides which of the two endings the report has. */
  lemma StatusLineEnds(head: string, loaded: bool)
    ensures var r := head + (if loaded then "Estado: Cargado" else "Estado: No cargado");
            && (loaded <==> EndsWith(r, "Estado: Cargado"))
            && (!loaded <==> EndsWith(r, "Estado: No cargado"))
  {
    if loaded {
      EndsLoaded(head);
    } else {
      EndsNotLoaded(head);
    }
  }

  lemma EndsLoaded(head: string)
    ensures EndsWith(head + "Estado: Cargado", "Estado: Cargado")
    ensures !EndsWith(head + "Estado: Cargado", "Estado: No cargado")
  {
    var yes := "Estado: Cargado";
    var no := "Estado: No cargado";
    var r := head + yes;
    assert r[|r| - |yes|..] == yes;
    if |no| <= |r| {
      assert r[|r| - |no|..][3] == r[|r| - |yes|] == yes[0] != no[3];
    }
  }

  lemma EndsNotLoaded(head: string)
    ensures EndsWith(head + "Estado: No cargado", "Estado: No cargado")
    ensures !EndsWith(head + "Estado: No cargado", "Estado: Cargado")
  {
    var yes := "Estado: Cargado";
    var no := "Estado: No cargado";
    var r := head + no;
    assert r[|r| - |no|..] == no;
    assert r[|r| - |yes|..][0] == no[3] != yes[0];
  }
}

=== FILE: rag_system.dfy ===
/**
  The RAG orchestration (src/rag_system.py): indexing a path into the vector
  store, answering a question from the retrieved chunks, and the two helpers
  that turn retrieved chunks into the prompt context and into cited sources.

  The document loader is the `process` parameter (any implementation of
  `process_documents`; `DocumentLoader.ProcessDocuments` is the repository's
  own), the vector store is the `VectorStore` model over a Chroma `Engine`,
  and the prompt -> LLM -> parser chain is the `generate` parameter, called
  with the formatted context and the question.
 */
module RagSystem {
  import opened Results
  import opened Strings
  import opened Errors
  import opened Models
  import Config
  import Dedup
  import VS = VectorStore
  import DL = DocumentLoader

  /** `RAGSystem`: its settings and the state of its vector store. */
  datatype Rag = Rag(settings: Config.Settings, store: VS.Store)

  /** The system after an operation, with what the operation returned or raised. */
  datatype WithRag<T> = After(rag: Rag, result: Outcome<T>)

  const IndexingMessage := "Error durante la indexacion"
  const QueryMessage := "Error durante la consulta"

  /**
    `RAGSystem.index_documents`: no chunks means `False` and no call to the
    store; otherwise the chunks are indexed. Any exception, the system's own
    included, becomes an `IndexError` carrying the cause's text.
   */
  function IndexDocuments(rag: Rag, path: string, process: string -> Outcome<seq<Doc>>, engine: VS.Engine): (r: WithRag<bool>)
    ensures r.rag.settings == rag.settings
    ensures process(path) == Ok([]) ==> r == After(rag, Ok(false))
    ensures r.result == Ok(false) <==> process(path) == Ok([])
    ensures r.result == Ok(true) <==>
              && process(path).Ok? && process(path).value != []
              && engine.build(process(path).value, rag.store.persistDirectory).Ok?
    ensures r.result == Ok(true) ==>
              r.rag.store == VS.Create(rag.store, process(path).value, engine).store && VS.IsInitialized(r.rag.store)
    ensures r.result.Fail? ==> r.rag == rag && r.result.error.cls == Indexing && r.result.error.message == IndexingMessage
    ensures process(path).Fail? ==>
              r.result.Fail? && Contains(Render(r.result.error), Render(process(path).error))
    ensures process(path).Fail? ==> r == After(rag, Fail(Wrap(Indexing, IndexingMessage, process(path).error)))
    ensures process(path).Ok? && process(path).value != [] && VS.Create(rag.store, process(path).value, engine).result.Fail? ==>
              r == After(rag, Fail(Wrap(Indexing, IndexingMessage, VS.Create(rag.store, process(path).value, engine).result.error)))
  {
    match process(path)
    case Fail(e) => After(rag, Fail(Wrap(Indexing, IndexingMessage, e)))
    case Ok(chunks) =>
      if chunks == [] then After(rag, Ok(false))
      else
        var created := VS.Create(rag.store, chunks, engine);
        match created.result
        case Ok(_) => After(rag.(store := created.store), Ok(true))
        case Fail(e) => After(rag, Fail(Wrap(Indexing, IndexingMessage, e)))
  }

  /**
    With no chunks the engine is never consulted: the outcome is the same
    whatever the engine would do.
   */
  lemma IndexEmptyIgnoresEngine(rag: Rag, path: string, process: string -> Outcome<seq<Doc>>, e1: VS.Engine, e2: VS.Engine)
    requires process(path) == Ok([])
    ensures IndexDocuments(rag, path, process, e1) == IndexDocuments(rag, path, process, e2) == After(rag, Ok(false))
  {
  }

  /**
    With chunks, the engine is asked once, to build from exactly those chunks
    in the configured directory: two engines that agree on that call give the
    same outcome.
   */
  lemma IndexBuildsFromChunks(rag: Rag, path: string, process: string -> Outcome<seq<Doc>>, e1: VS.Engine, e2: VS.Engine)
    requires process(path).Ok? && process(path).value != []
    requires e1.build(process(path).value, rag.store.persistDirectory) == e2.build(process(path).value, rag.store.persistDirectory)
    ensures IndexDocuments(rag, path, process, e1) == IndexDocuments(rag, path, process, e2)
  {
  }

  /** A failing store build surfaces as an `IndexError` whose text includes the store's error. */
  lemma IndexWrapsStoreFailure(rag: Rag, path: string, process: string -> Outcome<seq<Doc>>, engine: VS.Engine)
    requires process(path).Ok? && process(path).value != []
    requires engine.build(process(path).value, rag.store.persistDirectory).Fail?
    ensures var r := IndexDocuments(rag, path, process, engine);
            && r.rag == rag && r.result.Fail? && r.result.error.cls == Indexing
            && Contains(Render(r.result.error), Render(VS.Create(rag.store, process(path).value, engine).result.error))
  {
  }

  /**
    With the repository's own loader, indexing a missing path fails with an
    `IndexError` whose text names the path (the not-found error is wrapped,
    not passed through).
   */
  lemma IndexMissingPath(rag: Rag, fs: DL.FileSystem, path: string, parse: DL.Parser, split: DL.Splitter, engine: VS.Engine)
    requires path !in fs
    ensures var r := IndexDocuments(rag, path, p => DL.ProcessDocuments(fs, p, parse, split), engine);
            && r.rag == rag && r.result.Fail? && r.result.error.cls == Indexing
            && Contains(Render(r.result.error), path)
  {
    var process := p => DL.ProcessDocuments(fs, p, parse, split);
    var r := IndexDocuments(rag, path, process, engine);
    assert process(path) == Fail(NotFound(path));
    ContainsTransitive(Render(r.result.error), Render(NotFound(path)), path);
  }

  /** `RAGSystem.load_existing_index`. */
  function LoadExistingIndex(rag: Rag, engine: VS.Engine): (r: WithRag<bool>)
    ensures r.rag.settings == rag.settings
    ensures !rag.store.dirExists ==> r == After(rag, Ok(false))
    ensures r.result == Ok(true) ==> VS.IsInitialized(r.rag.store)
    ensures r.result.Fail? ==> r.rag == rag && IsA(r.result.error.cls, VectorStore)
    ensures rag.store.dirExists && engine.open(rag.store.persistDirectory).Ok? ==>
              && r.result == Ok(true)
              && r.rag == rag.(store := rag.store.(handle := Some(engine.open(rag.store.persistDirectory).value)))
    ensures rag.store.dirExists && engine.open(rag.store.persistDirectory).Fail? ==>
              r == After(rag, Fail(Wrap(VectorStore, "Error cargando vector store", engine.open(rag.store.persistDirectory).error)))
  {
    var loaded := VS.Load(rag.store, engine);
    IsAPartialOrder(VectorStore, VectorStore, VectorStore);
    After(rag.(store := loaded.store), loaded.result)
  }

  /** `RAGSystem.delete_index`. */
  function DeleteIndex(rag: Rag): (r: Rag)
    ensures r.settings == rag.settings
    ensures !VS.IsInitialized(r.store) && !r.store.dirExists
    ensures r.store.persistDirectory == rag.store.persistDirectory
  {
    rag.(store := VS.Delete(rag.store))
  }

  /** `k or retrieval_k`: `None` and `0` both fall back to the configured value. */
  function EffectiveK(k: Option<int>, retrievalK: int): (r: int)
    ensures k.None? ==> r == retrievalK
    ensures k.Some? ==> (r == k.value <==> k.value != 0 || retrievalK == 0)
    ensures k.Some? && k.value != 0 ==> r == k.value
    ensures k == Some(0) ==> r == retrievalK
    ensures r == 0 ==> retrievalK == 0
  {
    match k
    case None => retrievalK
    case Some(v) => if v == 0 then retrievalK else v
  }

  /** Under valid settings the store is never asked for zero chunks. */
  lemma EffectiveKNeverZero(k: Option<int>, settings: Config.Settings)
    requires Config.Valid(settings)
    ensures EffectiveK(k, settings.retrievalK) != 0
    ensures k.Some? && k.value > 0 ==> EffectiveK(k, settings.retrievalK) == k.value
  {
  }

  /** The first line of the block for the `n`-th retrieved chunk. */
  function ContextLabel(n: nat): string
  {
    "[Documento " + NatToString(n) + "]\n"
  }

  /** The `Fuente:` and `Pagina:` lines of a chunk's block. */
  function ContextOrigin(d: Doc): string
  {
    "Fuente: " + Basename(SourcePath(d)) + "\nPagina: " + PageText(PageOf(d)) + "\n"
  }

  /** The block `_format_context` writes for the `n`-th retrieved chunk. */
  function ContextBlock(n: nat, d: Doc): (r: string)
    ensures ContextLabel(n) <= r
    ensures Contains(r, ContextOrigin(d))
    ensures Contains(r, d.content)
    ensures EndsWith(r, d.content + "\n")
  {
    var r := ContextLabel(n) + ContextOrigin(d) + "Contenido: " + d.content + "\n";
    PartsOfFive(ContextLabel(n), ContextOrigin(d), "Contenido: ", d.content, "\n");
    r
  }

  /** Blocks for different positions have different labels: `NatToString` is injective. */
  lemma ContextLabelsDistinct(a: nat, b: nat)
    requires a != b
    ensures ContextLabel(a) != ContextLabel(b)
  {
    var la, lb := ContextLabel(a), ContextLabel(b);
    if la == lb {
      var da, db := NatToString(a), NatToString(b);
      assert |da| == |la| - 13 == |db|;
      assert la[11..11 + |da|] == da;
      assert lb[11..11 + |db|] == db;
      NatToStringInjective(a, b);
    }
  }

  /** The blocks of the context, numbered from 1 in retrieval order. */
  function ContextBlocks(docs: seq<Doc>): (r: seq<string>)
    ensures |r| == |docs|
  {
    seq(|docs|, i requires 0 <= i < |docs| => ContextBlock(i + 1, docs[i]))
  }

  /** `RAGSystem._format_context`. */
  function FormatContext(docs: seq<Doc>): (r: string)
    ensures r == "" <==> docs == []
    ensures docs != [] ==> ContextLabel(1) <= r
  {
    var blocks := ContextBlocks(docs);
    if |blocks| == 0 then ""
    else
      JoinStartsWithFirst("\n", blocks);
      Join("\n", blocks)
  }

  /**
    The context grows block by block: one more retrieved chunk appends a
    newline and its block, numbered after the others.
   */
  lemma FormatContextSnoc(docs: seq<Doc>, d: Doc)
    requires docs != []
    ensures FormatContext(docs + [d]) == FormatContext(docs) + "\n" + ContextBlock(|docs| + 1, d)
  {
    var longer := docs + [d];
    assert ContextBlocks(longer) == ContextBlocks(docs) + [ContextBlock(|docs| + 1, d)] by {
      forall i | 0 <= i < |longer|
        ensures ContextBlocks(longer)[i] == (ContextBlocks(docs) + [ContextBlock(|docs| + 1, d)])[i]
      {
        if i < |docs| {
          assert longer[i] == docs[i];
        }
      }
    }
    JoinSnoc("\n", ContextBlocks(docs), ContextBlock(|docs| + 1, d));
  }

  /** Every retrieved chunk's block, and so its content and origin, is part of the context. */
  lemma FormatContextContainsEach(docs: seq<Doc>, i: int)
    requires 0 <= i < |docs|
    ensures Contains(FormatContext(docs), ContextBlock(i + 1, docs[i]))
    ensures Contains(FormatContext(docs), docs[i].content)
    ensures Contains(FormatContext(docs), ContextOrigin(docs[i]))
  {
    var blocks := ContextBlocks(docs);
    JoinContainsEach("\n", blocks, i);
    JoinContainsWithin("\n", blocks, i, docs[i].content);
    JoinContainsWithin("\n", blocks, i, ContextOrigin(docs[i]));
  }

  /** One chunk: the context is exactly its block, numbered 1. */
  lemma FormatContextSingle(d: Doc)
    ensures FormatContext([d]) == ContextBlock(1, d)
  {
    assert ContextBlocks([d]) == [ContextBlock(1, d)];
  }

  /** The dedup keys of the chunks `zip(documents, scores)` walks over. */
  function ZipKeys(docs: seq<Doc>, scores: seq<real>): (keys: seq<string>)
    ensures |keys| <= |docs| && |keys| <= |scores|
    ensures |keys| == |docs| || |keys| == |scores|
    ensures forall i :: 0 <= i < |keys| ==> keys[i] == DocKey(docs[i])
  {
    var n := if |docs| <= |scores| then |docs| else |scores|;
    seq(n, i requires 0 <= i < n => DocKey(docs[i]))
  }

  /** Every chunk of the zipped list cited, duplicates included. */
  function Candidates(docs: seq<Doc>, scores: seq<real>): (r: seq<Source>)
    ensures |r| == |ZipKeys(docs, scores)|
  {
    var n := if |docs| <= |scores| then |docs| else |scores|;
    seq(n, i requires 0 <= i < n => FromDoc(docs[i], scores[i]))
  }

  /** The sources for the given positions of the zipped list. */
  function Cite(docs: seq<Doc>, scores: seq<real>, idx: seq<nat>): (r: seq<Source>)
    requires forall j :: 0 <= j < |idx| ==> idx[j] < |docs| && idx[j] < |scores|
    ensures |r| == |idx|
  {
    Dedup.Select(Candidates(docs, scores), idx)
  }

  /** A cited source has the key of the chunk it was built from. */
  lemma CiteKeys(docs: seq<Doc>, scores: seq<real>, idx: seq<nat>)
    requires forall j :: 0 <= j < |idx| ==> idx[j] < |docs| && idx[j] < |scores|
    ensures forall j :: 0 <= j < |idx| ==> KeyOf(Cite(docs, scores, idx)[j]) == DocKey(docs[idx[j]])
  {
  }

  /** Citing one more position appends its source. */
  lemma CiteSnoc(docs: seq<Doc>, scores: seq<real>, idx: seq<nat>, i: nat)
    requires forall j :: 0 <= j < |idx| ==> idx[j] < |docs| && idx[j] < |scores|
    requires i < |docs| && i < |scores|
    ensures Cite(docs, scores, idx + [i]) == Cite(docs, scores, idx) + [FromDoc(docs[i], scores[i])]
  {
    Dedup.SelectSnoc(Candidates(docs, scores), idx, i);
  }

  /**
    `RAGSystem._extract_sources`: one source per distinct page key, taken
    from the first chunk with that key; a surplus document or score is
    ignored, as `zip` does.
   */
  function ExtractSources(docs: seq<Doc>, scores: seq<real>): (r: seq<Source>)
    ensures |r| <= |docs| && |r| <= |scores|
    ensures forall a, b :: 0 <= a < |r| && 0 <= b < |r| && a != b ==> KeyOf(r[a]) != KeyOf(r[b])
    ensures forall i :: 0 <= i < |ZipKeys(docs, scores)| ==>
              exists j :: 0 <= j < |r| && KeyOf(r[j]) == ZipKeys(docs, scores)[i]
  {
    var keys := ZipKeys(docs, scores);
    Dedup.KeptLength(keys);
    ExtractDistinct(docs, scores);
    var r := Cite(docs, scores, Dedup.Kept(keys));
    forall i | 0 <= i < |keys|
      ensures exists j :: 0 <= j < |r| && KeyOf(r[j]) == keys[i]
    {
      ExtractCovers(docs, scores, i);
    }
    r
  }

  /** No two cited sources share a key. */
  lemma ExtractDistinct(docs: seq<Doc>, scores: seq<real>)
    ensures var r := Cite(docs, scores, Dedup.Kept(ZipKeys(docs, scores)));
            forall a, b :: 0 <= a < |r| && 0 <= b < |r| && a != b ==> KeyOf(r[a]) != KeyOf(r[b])
  {
    var keys := ZipKeys(docs, scores);
    var kept := Dedup.Kept(keys);
    Dedup.KeptDistinctKeys(keys);
    CiteKeys(docs, scores, kept);
  }

  /** Every chunk's key is the key of some cited source. */
  lemma ExtractCovers(docs: seq<Doc>, scores: seq<real>, i: int)
    requires 0 <= i < |ZipKeys(docs, scores)|
    ensures exists j :: 0 <= j < |Dedup.Kept(ZipKeys(docs, scores))|
                        && KeyOf(Cite(docs, scores, Dedup.Kept(ZipKeys(docs, scores)))[j]) == ZipKeys(docs, scores)[i]
  {
    var keys := ZipKeys(docs, scores);
    var kept := Dedup.Kept(keys);
    CiteKeys(docs, scores, kept);
    Dedup.KeptCoversKey(keys, i);
  }

  /**
    The sources are a subsequence of the zipped chunks in ranked order: the
    `j`-th source is built from the first chunk of its key, and positions
    increase.
   */
  lemma ExtractSourcesOrder(docs: seq<Doc>, scores: seq<real>)
    ensures var keys := ZipKeys(docs, scores);
            var kept := Dedup.Kept(keys);
            && |ExtractSources(docs, scores)| == |kept|
            && (forall a, b :: 0 <= a < b < |kept| ==> kept[a] < kept[b])
            && (forall j :: 0 <= j < |kept| ==>
                  && Dedup.IsFirst(keys, kept[j])
                  && ExtractSources(docs, scores)[j] == FromDoc(docs[kept[j]], scores[kept[j]]))
  {
    var keys := ZipKeys(docs, scores);
    var kept := Dedup.Kept(keys);
    Dedup.KeptIncreasing(keys);
    forall j | 0 <= j < |kept|
      ensures Dedup.IsFirst(keys, kept[j])
    {
      assert kept[j] in kept;
    }
  }

  /** When every chunk comes from the same page, exactly one source is cited: the best-ranked one. */
  lemma ExtractSourcesAllSame(docs: seq<Doc>, scores: seq<real>)
    requires 0 < |docs| <= |scores|
    requires forall i :: 0 <= i < |docs| ==> DocKey(docs[i]) == DocKey(docs[0])
    ensures ExtractSources(docs, scores) == [FromDoc(docs[0], scores[0])]
  {
    var keys := ZipKeys(docs, scores);
    Dedup.KeptAllSame(keys);
  }

  /**
    The cited sources of a query are already distinct, so `format_sources`
    prints every one of them, numbered 1, 2, ... without gaps.
   */
  lemma QuerySourcesPrintWithoutGaps(docs: seq<Doc>, scores: seq<real>)
    ensures var sources := ExtractSources(docs, scores);
            Dedup.Kept(SourceKeys(sources)) == seq(|sources|, j => j)
  {
    DistinctSourcesPrintWithoutGaps(ExtractSources(docs, scores));
  }

  /** Sources with pairwise distinct keys all survive the deduplication of `format_sources`. */
  lemma DistinctSourcesPrintWithoutGaps(sources: seq<Source>)
    requires forall a, b :: 0 <= a < |sources| && 0 <= b < |sources| && a != b ==> KeyOf(sources[a]) != KeyOf(sources[b])
    ensures Dedup.Kept(SourceKeys(sources)) == seq(|sources|, j => j)
  {
    var keys := SourceKeys(sources);
    forall a, b | 0 <= a < b < |keys|
      ensures keys[a] != keys[b]
    {
      assert keys[a] == KeyOf(sources[a]) && keys[b] == KeyOf(sources[b]);
    }
    Dedup.KeptOfDistinct(keys);
  }

  /** The sources cited after the loop of `_extract_sources` has seen the first `n` chunks. */
  function CitedUpTo(docs: seq<Doc>, scores: seq<real>, n: nat): (r: seq<Source>)
    requires n <= |ZipKeys(docs, scores)|
    ensures n == |ZipKeys(docs, scores)| ==> r == ExtractSources(docs, scores)
  {
    var keys := ZipKeys(docs, scores);
    assert n == |keys| ==> keys[..n] == keys;
    Cite(docs, scores, Dedup.Kept(keys[..n]))
  }

  /**
    `_extract_sources` as the source writes it: a loop with a set of seen
    keys. It computes `ExtractSources`.
   */
  method ExtractSourcesLoop(docs: seq<Doc>, scores: seq<real>) returns (sources: seq<Source>)
    ensures sources == ExtractSources(docs, scores)
  {
    var keys := ZipKeys(docs, scores);
    var n := |keys|;
    sources := [];
    var seen: set<string> := {};
    var i := 0;
    while i < n
      invariant 0 <= i <= n
      invariant seen == set j | 0 <= j < i :: keys[j]
      invariant sources == CitedUpTo(docs, scores, i)
    {
      var key := DocKey(docs[i]);
      ExtractStep(docs, scores, i, seen);
      if key !in seen {
        seen := seen + {key};
        sources := sources + [FromDoc(docs[i], scores[i])];
      }
      i := i + 1;
    }
  }

  /** One iteration of the loop in `_extract_sources`. */
  lemma ExtractStep(docs: seq<Doc>, scores: seq<real>, i: int, seen: set<string>)
    requires 0 <= i < |ZipKeys(docs, scores)|
    requires seen == set j | 0 <= j < i :: ZipKeys(docs, scores)[j]
    ensures ZipKeys(docs, scores)[i] == DocKey(docs[i])
    ensures DocKey(docs[i]) in seen ==> CitedUpTo(docs, scores, i + 1) == CitedUpTo(docs, scores, i)
    ensures DocKey(docs[i]) !in seen ==>
              CitedUpTo(docs, scores, i + 1) == CitedUpTo(docs, scores, i) + [FromDoc(docs[i], scores[i])]
    ensures (set j | 0 <= j < i + 1 :: ZipKeys(docs, scores)[j]) == seen + {DocKey(docs[i])}
  {
    var keys := ZipKeys(docs, scores);
    Dedup.KeptSnoc(keys, i);
    Dedup.SeenStep(keys, i, seen);
    if keys[i] !in seen {
      CiteSnoc(docs, scores, Dedup.Kept(keys[..i]), i);
    }
  }

  /** The store's view of a search result: chunks and their distances, unzipped. */
  function Chunks(results: seq<(Doc, real)>): (docs: seq<Doc>)
    ensures |docs| == |results|
  {
    seq(|results|, i requires 0 <= i < |results| => results[i].0)
  }

  function Distances(results: seq<(Doc, real)>): (scores: seq<real>)
    ensures |scores| == |results|
  {
    seq(|results|, i requires 0 <= i < |results| => results[i].1)
  }

  /**
    The `except` clauses of `query`: a not-initialised error passes through,
    anything else becomes a `QueryError` carrying the cause's text.
   */
  function QueryFailure(e: Err): (r: Err)
    ensures e.cls == VectorStoreNotInitialized ==> r == e
    ensures e.cls != VectorStoreNotInitialized ==>
              r.cls == Query && r.message == QueryMessage && Contains(Render(r), Render(e))
    ensures e.cls != VectorStoreNotInitialized ==> r == Wrap(Query, QueryMessage, e)
  {
    if IsA(e.cls, VectorStoreNotInitialized) then e else Wrap(Query, QueryMessage, e)
  }

  /**
    `RAGSystem.query`: refused up front when no index is loaded; otherwise
    the question is searched with the effective `k`, the chunks become the
    context the generator answers from, and the sources are cited.
   */
  function QueryRag(rag: Rag, question: string, k: Option<int>, engine: VS.Engine, generate: (string, string) -> Outcome<string>): (r: Outcome<QueryResult>)
    ensures !VS.IsInitialized(rag.store) ==> r == Fail(NotInitialized())
    ensures r.Fail? ==> r.error.cls in {VectorStoreNotInitialized, Query}
    ensures VS.IsInitialized(rag.store)
            && engine.search(rag.store.handle.value, question, EffectiveK(k, rag.settings.retrievalK)).Fail? ==>
              r == Fail(QueryFailure(engine.search(rag.store.handle.value, question, EffectiveK(k, rag.settings.retrievalK)).error))
    ensures VS.IsInitialized(rag.store)
            && engine.search(rag.store.handle.value, question, EffectiveK(k, rag.settings.retrievalK)).Ok?
            && generate(FormatContext(Chunks(engine.search(rag.store.handle.value, question, EffectiveK(k, rag.settings.retrievalK)).value)), question).Fail? ==>
              r == Fail(QueryFailure(generate(FormatContext(Chunks(engine.search(rag.store.handle.value, question, EffectiveK(k, rag.settings.retrievalK)).value)), question).error))
    ensures r.Ok? <==>
              && VS.IsInitialized(rag.store)
              && engine.search(rag.store.handle.value, question, EffectiveK(k, rag.settings.retrievalK)).Ok?
              && generate(FormatContext(Chunks(engine.search(rag.store.handle.value, question, EffectiveK(k, rag.settings.retrievalK)).value)), question).Ok?
    ensures r.Ok? ==>
              var results := engine.search(rag.store.handle.value, question, EffectiveK(k, rag.settings.retrievalK)).value;
              && r.value.query == question
              && r.value.answer == generate(FormatContext(Chunks(results)), question).value
              && r.value.sources == ExtractSources(Chunks(results), Distances(results))
  {
    if !VS.IsInitialized(rag.store) then Fail(NotInitialized())
    else
      var kk := EffectiveK(k, rag.settings.retrievalK);
      match VS.SimilaritySearch(rag.store, question, kk, engine)
      case Fail(e) => Fail(QueryFailure(e))
      case Ok(results) =>
        var docs := Chunks(results);
        match generate(FormatContext(docs), question)
        case Fail(e) => Fail(QueryFailure(e))
        case Ok(answer) => Ok(QueryResult(answer, ExtractSources(docs, Distances(results)), question))
  }

  /**
    The store is searched with the effective `k` and nothing else: engines
    that agree on that one search give the same answer.
   */
  lemma QueryPassesK(rag: Rag, question: string, k: Option<int>, e1: VS.Engine, e2: VS.Engine, generate: (string, string) -> Outcome<string>)
    requires VS.IsInitialized(rag.store)
    requires e1.search(rag.store.handle.value, question, EffectiveK(k, rag.settings.retrievalK))
             == e2.search(rag.store.handle.value, question, EffectiveK(k, rag.settings.retrievalK))
    ensures QueryRag(rag, question, k, e1, generate) == QueryRag(rag, question, k, e2, generate)
  {
  }

  /** After the index is deleted, every query is refused as not initialised. */
  lemma QueryAfterDelete(rag: Rag, question: string, k: Option<int>, engine: VS.Engine, generate: (string, string) -> Outcome<string>)
    ensures QueryRag(DeleteIndex(rag), question, k, engine, generate) == Fail(NotInitialized())
  {
  }

  /**
    After a successful indexing, a query reaches the new index: it is no
    longer refused up front, and the search goes to the handle just built.
   */
  lemma QueryAfterIndex(rag: Rag, path: string, process: string -> Outcome<seq<Doc>>, engine: VS.Engine,
                        question: string, k: Option<int>, generate: (string, string) -> Outcome<string>)
    requires IndexDocuments(rag, path, process, engine).result == Ok(true)
    requires forall h, q, n :: engine.search(h, q, n).Fail? ==> engine.search(h, q, n).error.cls != VectorStoreNotInitialized
    requires forall c, q :: generate(c, q).Fail? ==> generate(c, q).error.cls != VectorStoreNotInitialized
    ensures var after := IndexDocuments(rag, path, process, engine).rag;
            && after.store.handle == Some(engine.build(process(path).value, rag.store.persistDirectory).value)
            && QueryRag(after, question, k, engine, generate) != Fail(NotInitialized())
  {
  }

  /**
    A successful query cites no more sources than chunks were retrieved, and
    at least one when any chunk was retrieved.
   */
  lemma QueryNumSources(rag: Rag, question: string, k: Option<int>, engine: VS.Engine, generate: (string, string) -> Outcome<string>)
    requires QueryRag(rag, question, k, engine, generate).Ok?
    ensures var results := engine.search(rag.store.handle.value, question, EffectiveK(k, rag.settings.retrievalK)).value;
            var n := NumSources(QueryRag(rag, question, k, engine, generate).value);
            && n <= |results|
            && (results != [] ==> n >= 1)
  {
    var results := engine.search(rag.store.handle.value, question, EffectiveK(k, rag.settings.retrievalK)).value;
    var docs := Chunks(results);
    var scores := Distances(results);
    if results != [] {
      assert |ZipKeys(docs, scores)| == |results|;
      assert exists j :: 0 <= j < |ExtractSources(docs, scores)| && KeyOf(ExtractSources(docs, scores)[j]) == ZipKeys(docs, scores)[0];
    }
  }

  /**
    The deduplication example of the test-suite: two chunks of page 1 of
    "/path/doc.pdf" at distances 0.2 and 0.3 give one source, the first.
   */
  lemma ExtractSourcesExample()
    ensures var d1 := Doc("Content 1", Some("/path/doc.pdf"), Some(PageNum(1)));
            var d2 := Doc("Content 2", Some("/path/doc.pdf"), Some(PageNum(1)));
            var r := ExtractSources([d1, d2], [0.2, 0.3]);
            && |r| == 1 && r[0].fileName == "doc.pdf" && r[0].page == PageNum(1)
            && r[0].content == "Content 1" && r[0].similarity == 0.8
  {
    var p := "/path/doc.pdf";
    LastIndexOfAt(p, '/', 5);
    assert Basename(p) == p[6..] == "doc.pdf";
    var d1 := Doc("Content 1", Some(p), Some(PageNum(1)));
    var d2 := Doc("Content 2", Some(p), Some(PageNum(1)));
    assert DocKey(d2) == DocKey(d1);
    ExtractSourcesAllSame([d1, d2], [0.2, 0.3]);
    var s := FromDoc(d1, 0.2);
    assert s.fileName == "doc.pdf" && s.similarity == 0.8;
  }
}

=== FILE: results.dfy ===
/**
  Option and Result: the model's replacement for Python's `None` defaults and
  for raised exceptions.
 */
module Results {

  datatype Option<+T> = None | Some(value: T) {

    /** `d.get(key, default)` once the lookup is an `Option`. */
    function GetOr(default: T): T
    {
      match this
      case Some(v) => v
      case None => default
    }
  }

  /** A value, or the exception an operation raises instead of returning. */
  datatype Result<+T, +E> = Ok(value: T) | Fail(error: E)
}

=== FILE: strings.dfy ===
/**
  String helpers shared by the whole model: the handful of Python string
  operations the system relies on (`t in s`, `str.startswith`, `str.lower`,
  `os.path.basename`, `os.path.splitext`, `sep.join`, `str(int)` and `c * n`),
  restricted to ASCII and to POSIX paths.
 */
module Strings {

  /** `t` occurs in `s` starting at index `i`. */
  predicate MatchAt(s: string, t: string, i: int)
  {
    0 <= i && i + |t| <= |s| && s[i..i + |t|] == t
  }

  /** Python's `t in s` on strings: `t` is a contiguous block of `s`. */
  predicate Contains(s: string, t: string)
  {
    exists i :: 0 <= i <= |s| - |t| && MatchAt(s, t, i)
  }

  lemma ContainsInfix(a: string, t: string, b: string)
    ensures Contains(a + t + b, t)
  {
    var s := a + t + b;
    assert s[|a|..|a| + |t|] == t;
    assert MatchAt(s, t, |a|);
  }

  /** The pieces of a string built from five parts: its head, its second and fourth parts, and its tail. */
  lemma PartsOfFive(a: string, b: string, c: string, d: string, e: string)
    ensures a <= a + b + c + d + e
    ensures Contains(a + b + c + d + e, b)
    ensures Contains(a + b + c + d + e, d)
    ensures EndsWith(a + b + c + d + e, d + e)
  {
    var s := a + b + c + d + e;
    ContainsInfix(a, b, c + d + e);
    assert a + b + (c + d + e) == s;
    ContainsInfix(a + b + c, d, e);
    assert s == (a + b + c) + (d + e);
  }

  lemma ContainsTransitive(s: string, t: string, u: string)
    requires Contains(s, t) && Contains(t, u)
    ensures Contains(s, u)
  {
    var i :| 0 <= i <= |s| - |t| && MatchAt(s, t, i);
    var j :| 0 <= j <= |t| - |u| && MatchAt(t, u, j);
    forall k | 0 <= k < |u|
      ensures s[i + j + k] == u[k]
    {
      assert s[i + j + k] == s[i..i + |t|][j + k] == t[j + k];
      assert t[j + k] == t[j..j + |u|][k];
    }
    assert s[i + j..i + j + |u|] == u;
    assert MatchAt(s, u, i + j);
  }

  /** Python's `s.endswith(t)`. */
  predicate EndsWith(s: string, t: string)
  {
    |t| <= |s| && s[|s| - |t|..] == t
  }

  /** ASCII `str.lower` on one character. */
  function LowerChar(c: char): char
  {
    if 'A' <= c <= 'Z' then (c as int + 32) as char else c
  }

  /** ASCII `str.lower`. */
  function Lower(s: string): (r: string)
    ensures |r| == |s|
    ensures forall i :: 0 <= i < |s| ==> r[i] == LowerChar(s[i])
  {
    seq(|s|, i requires 0 <= i < |s| => LowerChar(s[i]))
  }

  /** Python's `str.rfind` of one character: -1 when absent. */
  function LastIndexOf(s: string, c: char): (r: int)
    ensures -1 <= r < |s|
    ensures r >= 0 ==> s[r] == c
    ensures forall j :: r < j < |s| ==> s[j] != c
    decreases |s|
  {
    if |s| == 0 then -1
    else if s[|s| - 1] == c then |s| - 1
    else LastIndexOf(s[..|s| - 1], c)
  }

  /** The last occurrence is the one with no occurrence after it. */
  lemma LastIndexOfAt(s: string, c: char, i: int)
    requires 0 <= i < |s| && s[i] == c
    requires forall j :: i < j < |s| ==> s[j] != c
    ensures LastIndexOf(s, c) == i
  {
  }

  lemma LastIndexOfAbsent(s: string, c: char)
    requires c !in s
    ensures LastIndexOf(s, c) == -1
  {
  }

  /** POSIX `os.path.basename`: everything after the last '/'. */
  function Basename(p: string): (r: string)
    ensures '/' !in r
    ensures |r| <= |p| && r == p[|p| - |r|..]
    ensures |r| < |p| ==> p[|p| - |r| - 1] == '/'
  {
    p[LastIndexOf(p, '/') + 1..]
  }

  /**
    POSIX `os.path.splitext(p)[1]`: the suffix of the last path component
    from its last '.', or "" when that component has no '.' or has dots only
    before it (a leading-dot name such as ".bashrc" has no extension).
   */
  function Extension(p: string): (r: string)
    ensures r == "" || (r[0] == '.' && '.' !in r[1..] && '/' !in r)
    ensures |r| <= |p| && (r == "" || r == p[|p| - |r|..])
  {
    var sep := LastIndexOf(p, '/');
    var dot := LastIndexOf(p, '.');
    if sep < dot && exists j :: sep < j < dot && p[j] != '.' then p[dot..] else ""
  }

  /** Python's `sep.join(parts)`. */
  function Join(sep: string, parts: seq<string>): string
    decreases |parts|
  {
    if |parts| == 0 then ""
    else if |parts| == 1 then parts[0]
    else parts[0] + sep + Join(sep, parts[1..])
  }

  lemma {:induction false} JoinContainsEach(sep: string, parts: seq<string>, i: int)
    requires 0 <= i < |parts|
    ensures Contains(Join(sep, parts), parts[i])
    decreases |parts|
  {
    if |parts| == 1 {
      ContainsInfix("", parts[0], "");
      assert "" + parts[0] + "" == parts[0];
    } else if i == 0 {
      ContainsInfix("", parts[0], sep + Join(sep, parts[1..]));
      assert "" + parts[0] + (sep + Join(sep, parts[1..])) == Join(sep, parts);
    } else {
      JoinContainsEach(sep, parts[1..], i - 1);
      var rest := Join(sep, parts[1..]);
      ContainsInfix(parts[0] + sep, rest, "");
      assert parts[0] + sep + rest + "" == Join(sep, parts);
      ContainsTransitive(Join(sep, parts), rest, parts[i]);
    }
  }

  /** Joining one more part appends the separator and that part. */
  lemma {:induction false} JoinSnoc(sep: string, parts: seq<string>, x: string)
    requires |parts| > 0
    ensures Join(sep, parts + [x]) == Join(sep, parts) + sep + x
    decreases |parts|
  {
    var longer := parts + [x];
    if |parts| == 1 {
      assert longer[1..] == [x];
    } else {
      assert longer[1..] == parts[1..] + [x];
      JoinSnoc(sep, parts[1..], x);
    }
  }

  /** Whatever a part contains, the joined string contains. */
  lemma JoinContainsWithin(sep: string, parts: seq<string>, i: int, t: string)
    requires 0 <= i < |parts| && Contains(parts[i], t)
    ensures Contains(Join(sep, parts), t)
  {
    JoinContainsEach(sep, parts, i);
    ContainsTransitive(Join(sep, parts), parts[i], t);
  }

  /** The joined string starts with the first part. */
  lemma JoinStartsWithFirst(sep: string, parts: seq<string>)
    requires |parts| > 0
    ensures parts[0] <= Join(sep, parts)
  {
    if |parts| > 1 {
      assert Join(sep, parts) == parts[0] + (sep + Join(sep, parts[1..]));
    }
  }

  /** Joining two or more parts with a non-empty separator gives a non-empty string. */
  lemma JoinNonEmpty(sep: string, parts: seq<string>)
    requires |parts| >= 2 && sep != ""
    ensures Join(sep, parts) != ""
  {
    assert |parts[0] + sep + Join(sep, parts[1..])| >= |sep|;
  }

  /** Python's `c * n` for a one-character string. */
  function Repeat(c: char, n: nat): (r: string)
    ensures |r| == n
    ensures forall i :: 0 <= i < n ==> r[i] == c
  {
    seq(n, i => c)
  }

  function DigitChar(d: nat): char
    requires d < 10
  {
    ('0' as int + d) as char
  }

  predicate IsDigits(s: string)
  {
    forall i :: 0 <= i < |s| ==> '0' <= s[i] <= '9'
  }

  /** Python's `str(n)` for a non-negative integer. */
  function NatToString(n: nat): (r: string)
    ensures |r| > 0 && IsDigits(r)
    decreases n
  {
    if n < 10 then [DigitChar(n)] else NatToString(n / 10) + [DigitChar(n % 10)]
  }

  /** Decimal reading of a string of digits: the inverse of `NatToString`. */
  function ParseDigits(s: string): nat
    requires IsDigits(s)
    decreases |s|
  {
    if |s| == 0 then 0
    else 10 * ParseDigits(s[..|s| - 1]) + (s[|s| - 1] as int - '0' as int)
  }

  lemma {:induction false} ParseNatToString(n: nat)
    ensures ParseDigits(NatToString(n)) == n
    decreases n
  {
    var s := NatToString(n);
    if n >= 10 {
      ParseNatToString(n / 10);
      assert s[..|s| - 1] == NatToString(n / 10);
    }
  }

  /** Distinct numbers render to distinct strings. */
  lemma NatToStringInjective(a: nat, b: nat)
    requires NatToString(a) == NatToString(b)
    ensures a == b
  {
    ParseNatToString(a);
    ParseNatToString(b);
  }

  /** Python's `str(i)` for any integer. */
  function IntToString(i: int): (r: string)
    ensures |r| > 0
    ensures i >= 0 ==> r == NatToString(i)
    ensures i < 0 ==> r[0] == '-' && r[1..] == NatToString(-i)
  {
    if i >= 0 then NatToString(i) else "-" + NatToString(-i)
  }
}

=== FILE: vector_store.dfy ===
/**
  The vector-store wrapper (src/vector_store.py): a persist directory, the
  Chroma handle once one has been created or opened, and the operations that
  bind, use and drop it.

  Chroma itself is the `Engine` parameter: building an index from chunks,
  opening a persisted one, and searching a handle are whatever the engine
  does, success or exception. Whether the persist directory exists is part of
  the state, because `load_vectorstore` and `delete_vectorstore` ask the file
  system about it.
 */
module VectorStore {
  import opened Results
  import opened Errors
  import opened Models

  /** An open Chroma collection. */
  datatype Handle = Handle(id: nat)

  /** `VectorStore`: the persist directory, `_vectorstore`, and whether the directory is on disk. */
  datatype Store = Store(persistDirectory: string, handle: Option<Handle>, dirExists: bool)

  /** The Chroma calls the wrapper makes. */
  datatype Engine = Engine(
    build: (seq<Doc>, string) -> Outcome<Handle>,              // Chroma.from_documents(documents, persist_directory)
    open: string -> Outcome<Handle>,                           // Chroma(persist_directory)
    search: (Handle, string, int) -> Outcome<seq<(Doc, real)>>) // similarity_search_with_score(query, k)

  /** The state after an operation, with what it returned or raised. */
  datatype Step<T> = Step(store: Store, result: Outcome<T>)

  /** `as_retriever(search_type="similarity", search_kwargs={"k": k})`. */
  datatype Retriever = Retriever(handle: Handle, searchType: string, k: int)

  /** `VectorStore.is_initialized`: a Chroma handle is bound. */
  function IsInitialized(s: Store): (r: bool)
    ensures r <==> s.handle != None
  {
    s.handle.Some?
  }

  /** `VectorStore(persist_directory)`, with the directory as found on disk. */
  function New(persistDirectory: string, dirExists: bool): (s: Store)
    ensures !IsInitialized(s)
    ensures s.persistDirectory == persistDirectory && s.dirExists == dirExists
  {
    Store(persistDirectory, None, dirExists)
  }

  /**
    A bound handle has its directory on disk. Every operation keeps this;
    only a deletion from outside the program breaks it.
   */
  predicate Consistent(s: Store)
  {
    IsInitialized(s) ==> s.dirExists
  }

  /**
    `VectorStore.create_vectorstore`: an empty list is refused before Chroma
    is called; a build failure leaves the handle as it was and becomes a
    `VectorStoreError`, except that an empty-store error passes through.
   */
  function Create(s: Store, docs: seq<Doc>, engine: Engine): (r: Step<()>)
    ensures r.store.persistDirectory == s.persistDirectory
    ensures docs == [] ==> r == Step(s, Fail(EmptyStore()))
    ensures r.result.Ok? <==> docs != [] && engine.build(docs, s.persistDirectory).Ok?
    ensures r.result.Ok? ==> r.store.handle == Some(engine.build(docs, s.persistDirectory).value) && r.store.dirExists
    ensures r.result.Fail? ==> r.store == s && IsA(r.result.error.cls, VectorStore)
    ensures docs != [] && engine.build(docs, s.persistDirectory).Fail? ==>
              var cause := engine.build(docs, s.persistDirectory).error;
              r.result.error == (if IsA(cause.cls, VectorStoreEmpty) then cause
                                 else Wrap(VectorStore, "Error creando vector store", cause))
  {
    if docs == [] then Step(s, Fail(EmptyStore()))
    else
      match engine.build(docs, s.persistDirectory)
      case Ok(h) => Step(s.(handle := Some(h), dirExists := true), Ok(()))
      case Fail(e) =>
        IsAPartialOrder(e.cls, VectorStoreEmpty, VectorStore);
        if IsA(e.cls, VectorStoreEmpty) then Step(s, Fail(e))
        else Step(s, Fail(Wrap(VectorStore, "Error creando vector store", e)))
  }

  /**
    `VectorStore.load_vectorstore`: `False` and nothing changed when the
    directory is absent, even if a handle is bound; otherwise the opened
    handle replaces the old one, or a `VectorStoreError` leaves it in place.
   */
  function Load(s: Store, engine: Engine): (r: Step<bool>)
    ensures r.store.persistDirectory == s.persistDirectory && r.store.dirExists == s.dirExists
    ensures !s.dirExists ==> r == Step(s, Ok(false))
    ensures r.result == Ok(true) <==> s.dirExists && engine.open(s.persistDirectory).Ok?
    ensures r.result == Ok(true) ==> r.store.handle == Some(engine.open(s.persistDirectory).value)
    ensures r.result.Fail? ==> r.store == s
    ensures r.result.Fail? ==> r.result.error == Wrap(VectorStore, "Error cargando vector store", engine.open(s.persistDirectory).error)
    ensures s.dirExists && engine.open(s.persistDirectory).Fail? ==>
              r == Step(s, Fail(Wrap(VectorStore, "Error cargando vector store", engine.open(s.persistDirectory).error)))
  {
    if !s.dirExists then Step(s, Ok(false))
    else
      match engine.open(s.persistDirectory)
      case Ok(h) => Step(s.(handle := Some(h)), Ok(true))
      case Fail(e) => Step(s, Fail(Wrap(VectorStore, "Error cargando vector store", e)))
  }

  /** `VectorStore.similarity_search`: the query and `k` reach Chroma unchanged. */
  function SimilaritySearch(s: Store, query: string, k: int, engine: Engine): (r: Outcome<seq<(Doc, real)>>)
    ensures !IsInitialized(s) ==> r == Fail(NotInitialized())
    ensures IsInitialized(s) ==> r == engine.search(s.handle.value, query, k)
  {
    match s.handle
    case None => Fail(NotInitialized())
    case Some(h) => engine.search(h, query, k)
  }

  /** `VectorStore.get_retriever`. */
  function GetRetriever(s: Store, k: int): (r: Outcome<Retriever>)
    ensures r.Ok? <==> IsInitialized(s)
    ensures r.Ok? ==> r.value == Retriever(s.handle.value, "similarity", k)
    ensures r.Fail? ==> r.error == NotInitialized()
  {
    match s.handle
    case None => Fail(NotInitialized())
    case Some(h) => Ok(Retriever(h, "similarity", k))
  }

  /** `VectorStore.delete_vectorstore`: the directory is removed if present and the handle dropped. */
  function Delete(s: Store): (r: Store)
    ensures !IsInitialized(r) && !r.dirExists
    ensures r.persistDirectory == s.persistDirectory
  {
    Store(s.persistDirectory, None, false)
  }

  /** Every operation keeps a bound handle's directory on disk. */
  lemma OperationsKeepConsistent(s: Store, docs: seq<Doc>, engine: Engine)
    requires Consistent(s)
    ensures Consistent(New(s.persistDirectory, s.dirExists))
    ensures Consistent(Create(s, docs, engine).store)
    ensures Consistent(Load(s, engine).store)
    ensures Consistent(Delete(s))
  {
  }

  /**
    Only a successful creation or load binds a handle, only a deletion drops
    it, and a failing operation leaves the answer of `is_initialized` as it was.
   */
  lemma InitializedLifecycle(s: Store, dir: string, exists_: bool, docs: seq<Doc>, engine: Engine)
    ensures !IsInitialized(New(dir, exists_)) && !IsInitialized(Delete(s))
    ensures Create(s, docs, engine).result.Ok? ==> IsInitialized(Create(s, docs, engine).store)
    ensures Create(s, docs, engine).result.Fail? ==> IsInitialized(Create(s, docs, engine).store) == IsInitialized(s)
    ensures Load(s, engine).result == Ok(true) ==> IsInitialized(Load(s, engine).store)
    ensures Load(s, engine).result != Ok(true) ==> IsInitialized(Load(s, engine).store) == IsInitialized(s)
  {
  }

  /** Deleting twice is deleting once. */
  lemma DeleteIdempotent(s: Store)
    ensures Delete(Delete(s)) == Delete(s)
  {
  }

  /** After a deletion nothing can be searched, and a reload finds nothing to open. */
  lemma DeleteThenUse(s: Store, query: string, k: int, engine: Engine)
    ensures SimilaritySearch(Delete(s), query, k, engine) == Fail(NotInitialized())
    ensures GetRetriever(Delete(s), k) == Fail(NotInitialized())
    ensures Load(Delete(s), engine) == Step(Delete(s), Ok(false))
  {
  }

  /** After a successful creation, searches go to the new handle. */
  lemma CreateThenSearch(s: Store, docs: seq<Doc>, query: string, k: int, engine: Engine)
    requires Create(s, docs, engine).result.Ok?
    ensures SimilaritySearch(Create(s, docs, engine).store, query, k, engine)
            == engine.search(engine.build(docs, s.persistDirectory).value, query, k)
  {
  }

  /** A bound handle survives a load that finds no directory. */
  lemma LoadWithoutDirectoryKeepsHandle(h: Handle, dir: string, engine: Engine)
    ensures Load(Store(dir, Some(h), false), engine) == Step(Store(dir, Some(h), false), Ok(false))
    ensures IsInitialized(Load(Store(dir, Some(h), false), engine).store)
  {
  }
}
